=== FILE: README.md ===
# TaskFlow coin ledger — a Dafny model

TaskFlow is a micro-task marketplace. Buyers fund tasks with coins; workers
submit work against a task's slots; buyers approve (the worker is paid) or
reject (the slot is freed and the buyer refunded); workers cash coins out
through withdrawal requests that an admin approves. This project models the
Express route handlers that move coins and change the lifecycle of tasks,
submissions and withdrawals, together with the aggregate and notification
queries and the client-side notification store.

The store is one immutable `State` holding five collections (`users`,
`tasks`, `submissions`, `withdrawals`, `notifications`). Each collection is a
sequence. MongoDB's `findOne`, `updateOne` and `deleteOne` act on the first
matching document in natural order, which MongoDB does not promise to be
insertion order. The model chooses insertion order as that order. Where the
filter is a unique key (`_id`, or `email` under its unique index) at most one
document matches, so the choice does not matter. `updateMany`, `deleteMany` and `find` act on every match. Each route
handler is a pure function from the store to a `Reply`: the response (`Ok` or
a business `Error`) and the store afterwards.

A user that the handler dereferences but that does not exist makes the
source throw and answer 500. The model answers `Internal` and changes nothing.
An `$inc` or `$set` whose filter matches nothing is a no-op.

Modules:

- `Collection`: the MongoDB primitives as generic sequence functions, with
  counts, sums and a sorted, limited query. The table below lists the
  primitives the handlers are built from, each cited at one call site.
- `Store`: the documents, the state, the errors, and the two `$inc` updates the
  ledger is built from. `Credit` moves one balance; `ShiftSlots` moves one
  task's slot counter.
- `Tasks`, `Submissions`, `Withdrawals`, `Users`, `Auth`, `Stats`,
  `Notifications`: one module per route file.
- `NotificationContext`: the React notification store as pure list updates.
- `Platform`: every writing route as one step type, with three results:
  - the ledger-accounting theorem: the platform's coin total moves by exactly
    the flow each request names;
  - the slot-counter invariant;
  - email uniqueness.
- `Traces` and `Scenarios`: concrete request sequences on a small store.

Coins are not conserved by the source. A rejected slot is refunded to the buyer
by the reject and refunded again when the task is deleted. Rejecting the same
submission twice frees two slots for one taken. Approving twice pays twice.
These are stated as witness lemmas (`Traces.RejectThenDeleteRefundsTwice`,
`Traces.DoubleRejectOverbooks`, `Submissions.ApproveTwicePaysTwice`), not as
invariants. `Platform.StepMovesTotalByFlow` states what does hold: every
change of the coin total is one of the named flows.

## Model

| member | source | states |
|---|---|---|
| Collection.FindIndex | server/routes/tasks.js:23 | the position `findOne` reads: a matching document with no match before it, and none exactly when no document matches |
| Collection.FindOne | server/routes/tasks.js:23 | a document comes back iff some document matches, and then it is a stored matching one |
| Collection.UpdateOne | server/routes/tasks.js:101 | the first match is transformed, every other document stays, the length stays, and no match means no change |
| Collection.UpdateMany | server/routes/notifications.js:39 | every matching document is transformed and every other stays, position by position |
| Collection.DeleteOne | server/routes/users.js:56 | the first match is cut out and the rest keep their order; no match means no change |
| Collection.DeleteOneMultiset | server/routes/tasks.js:129 | `deleteOne` removes exactly one copy of the first match and nothing else |
| Collection.SortDesc | server/routes/tasks.js:12 | `.sort({ key: -1 })` is a permutation of its input in descending key order |
| Collection.FindSorted | server/routes/tasks.js:37 | `.find(p).sort(...)` holds exactly the matching documents, as a multiset, in descending key order |
| Collection.Take | server/routes/users.js:30 | `.limit(n)` is the prefix of length n, or everything when fewer remain |
| Collection.TopSpec | server/routes/users.js:28-30 | a sorted, limited query returns at most n matches in descending order, as many as there are up to n, and no match left out ranks above one returned |
| Store.Credit | server/routes/tasks.js:69 | `$inc` on one account's coins: that balance moves by delta, every other email reads the same balance, only the `coins` field of any document changes, no account means no change, and the platform total moves by delta exactly when the account exists |
| Store.ShiftSlots | server/routes/submissions.js:107 | `$inc` on one task's `current_submissions`: that task's counter moves by delta with no bound, every other task id reads the same task, no other field changes, and a missing task means no change |
| Tasks.List | server/routes/tasks.js:12 | every task is listed exactly once (same multiset), newest `createdAt` first |
| Tasks.ListByBuyer | server/routes/tasks.js:37 | exactly the buyer's tasks: each listed task has that `buyer_email`, every such task is listed, nothing else comes in, newest first |
| Tasks.Get | server/routes/tasks.js:23-27 | found iff some task has the id, and then the result is a stored task with that id; otherwise NotFound |
| Tasks.Create | server/routes/tasks.js:60-86 | with no buyer account the answer is Internal; Insufficient iff the balance is below quantity × pay; success iff the balance is at least the cost; on success the stored task carries the request's fields and 0 slots taken, it is appended, and no other collection changes; every error leaves the store unchanged |
| Tasks.CreateDebits | server/routes/tasks.js:64-69 | a successful creation lowers the buyer's balance by exactly quantity × pay, leaves it at least 0, moves no other balance, and lowers the platform total by the cost; no account document changes apart from its balance |
| Tasks.CreateExactBalance | server/routes/tasks.js:64 | the comparison is strict: a balance equal to the cost is accepted and drops to 0 |
| Tasks.Update | server/routes/tasks.js:97-103 | only title, detail and submission instructions of the first task with that id change, and every other position keeps its task; quantity, pay, slot count, buyer, id and creation time of every task stay; balances and other collections stay; an unknown id changes nothing and still succeeds |
| Tasks.Delete | server/routes/tasks.js:113-134 | NotFound iff no task has the id, with no change; otherwise the response is (quantity − slots taken) × pay whatever its sign, exactly one copy of the task leaves the collection, a submission survives iff its `task_id` differs, and withdrawals and notifications stay |
| Tasks.DeleteRefunds | server/routes/tasks.js:120-126 | a positive refund credits the task's buyer by exactly that amount and raises the total by it; a refund of 0 or less credits nobody; no other balance moves; no account document changes apart from its balance |
| Tasks.DeleteKeepsOtherTasks | server/routes/tasks.js:129 | every task with another id is still stored after the delete |
| Submissions.PendingForBuyer | server/routes/submissions.js:49-53 | exactly the buyer's pending submissions: each listed one has that `buyer_email` and status pending, every such submission is listed, no others, newest first |
| Submissions.ForTask | server/routes/submissions.js:34-38 | each listed submission belongs to the task, every one of the task's submissions is listed, newest first |
| Submissions.ForWorker | server/routes/submissions.js:14-22 | one page of the worker's submissions: drawn from the store (multiset containment), only that worker's, newest first, and entry j of the page is entry skip + j of the worker's submissions sorted newest first; exactly `limit` long when that many remain after the skipped ones, the rest when fewer do (all of them for `limit` 0), and empty when the skip passes the total; the total is the worker's count |
| Submissions.Create | server/routes/submissions.js:76-118 | Duplicate iff this worker already has a submission for this task in any status; otherwise Unavailable iff the task is missing or its counter has reached its quantity; success iff neither check fails; on success a pending submission with the request's pay is appended, that task's counter rises by 1, no other task changes, no balance moves, and the buyer is notified; errors change nothing |
| Submissions.DuplicateCheckedFirst | server/routes/submissions.js:76-89 | when both checks would fail, Duplicate is the answer |
| Collection.PageWithin | server/routes/submissions.js:18-19 | a page holds only stored documents, each at most as often as it is stored |
| Collection.Page | server/routes/submissions.js:18-19 | `.skip(n).limit(m)`: the page is the stored order from position n on, at most m long (no bound when m is 0), a full m-page whenever that many remain, and everything after n when the limit reaches past the end |
| Submissions.SetStatus | server/routes/submissions.js:136 | `$set` of the status on the submission with that id: it reads back with the new status, the collection keeps its length, and every position but the first match keeps its document |
| Submissions.Approve | server/routes/submissions.js:129-152 | NotFound iff the id is unknown, with no change; otherwise the first submission with that id is approved and no other submission changes, the worker is credited its pay, no other balance moves, tasks are untouched, and the worker is notified; there is no status check |
| Submissions.ApproveTwicePaysTwice | server/routes/submissions.js:136-141 | approving the same submission twice credits the worker twice its pay |
| Submissions.Reject | server/routes/submissions.js:162-190 | NotFound iff the id is unknown, with no change; otherwise the submission is rejected, only the first submission with that id changes, and the worker is notified |
| Submissions.RejectApplies | server/routes/submissions.js:169-179 | one reject is exactly a −1 `$inc` on the task's counter and a +pay `$inc` on the buyer's balance |
| Submissions.RejectReleasesSlot | server/routes/submissions.js:172-174 | the counter of the submission's task drops by 1 with no floor, no other task changes, and a missing task means no change |
| Submissions.RejectRefundsBuyer | server/routes/submissions.js:177-179 | the submission's buyer gets its pay back, no other balance moves, and a missing buyer account means no change; no account document changes apart from its balance |
| Submissions.RejectTwiceReleasesTwice | server/routes/submissions.js:168-174 | rejecting the same submission twice succeeds both times and lowers the task's counter by 2 |
| Submissions.RejectTwiceRefundsTwice | server/routes/submissions.js:168-179 | rejecting the same submission twice refunds its buyer twice its pay |
| Withdrawals.ListAll | server/routes/withdrawals.js:12 | every withdrawal is listed exactly once, newest `requested_at` first |
| Withdrawals.ForWorker | server/routes/withdrawals.js:23-27 | exactly the worker's withdrawals, newest first |
| Withdrawals.Request | server/routes/withdrawals.js:41-67 | with no worker account the answer is Internal; Insufficient iff the balance is below `withdraw_coin`; BelowMinimum iff the balance covers it but it is under 200; success iff both pass; on success a pending request with the given coin and cash amounts and no approval time is appended, and only users and withdrawals change; errors change nothing |
| Withdrawals.RequestDebits | server/routes/withdrawals.js:52 | a successful request debits exactly `withdraw_coin`, leaves the balance at least 0, moves no other balance, and lowers the total by the coins; no account document changes apart from its balance |
| Withdrawals.BalanceCheckedFirst | server/routes/withdrawals.js:41-49 | when the balance is short and the amount is under the minimum, Insufficient is the answer |
| Withdrawals.Approve | server/routes/withdrawals.js:77-96 | NotFound iff the id is unknown, with no change; otherwise the request is approved with the approval time set, only the first request with that id changes, no balance moves, and the worker is notified of the cash amount |
| Withdrawals.ApproveTwiceRestamps | server/routes/withdrawals.js:83-85 | approving again succeeds, overwrites the approval time, sends a second notice and still moves no balance |
| Users.TopWorkers | server/routes/users.js:26-31 | at most 6 users, all workers taken from the store, as many as there are workers up to 6, richest first, and no worker left out has more coins than one listed |
| Users.UpdateRole | server/routes/users.js:42-46 | only the role of the first user with that id changes, and every other position keeps its user; an unknown id changes nothing; always success |
| Users.UpdateRoleKeepsBalances | server/routes/users.js:44 | a role change moves no balance and leaves the total as it was |
| Users.Delete | server/routes/users.js:56-57 | exactly one copy of the first user with that id leaves the collection; an unknown id changes nothing; always success |
| Users.DeleteRemovesExactly | server/routes/users.js:56 | with ids unique, no user with that id remains and every user with another id does |
| Users.UpdateCoins | server/routes/users.js:67-73 | "add" raises the balance by `coins`, any other operation lowers it by `coins`; no other balance moves; an unknown email changes nothing; every account document stays as it was apart from its balance |
| Users.SubtractCanOverdraw | server/routes/users.js:69 | a subtraction larger than the balance leaves it negative |
| Auth.StartingCoins | server/routes/auth.js:24 | 10 for a worker, 50 for a buyer, 0 for any other role |
| Auth.Register | server/routes/auth.js:15-37 | UserExists iff the email is already registered, with no change; otherwise exactly one account with the given email, hash and role and the role's starting coins is appended, and nothing else changes |
| Auth.RegisterStartingBalance | server/routes/auth.js:24-37 | the new email reads exactly the starting balance and no other balance moves |
| Auth.RegisterKeepsEmailsUnique | server/routes/auth.js:15-18 | registration never creates a second account for an email |
| Auth.AppendNewAccount | server/routes/auth.js:37 | appending an account with a new email makes that email read its coins, leaves every other email's balance, and adds its coins to the total |
| Auth.Login | server/routes/auth.js:60-69 | success iff the email is registered and the password predicate accepts the stored hash, returning that account; an unknown email or a failed check is InvalidCredentials |
| Auth.GoogleSignIn | server/routes/auth.js:93-111 | always success; a known email returns the stored account and stores nothing; a new email appends an account with an empty password and the role's starting coins |
| Auth.GoogleExistingKeepsBalance | server/routes/auth.js:93-95 | signing in with a known email leaves the users and that balance as they were, whatever role is sent |
| Auth.GoogleNewStartingBalance | server/routes/auth.js:95-110 | a first sign-in starts the account with the role's starting coins and moves no other balance |
| Stats.Admin | server/routes/stats.js:12-28 | workers plus buyers never exceed the users; `totalTasks` is the task count; `totalCoins` is the ledger total and 0 with no users; `totalPayments` is 0 with no withdrawals |
| Stats.RegisterMovesAdminStats | server/routes/stats.js:12-21 | a registration adds one to the count of its role only and its starting coins to `totalCoins` |
| Stats.ApproveMovesPayments | server/routes/stats.js:24-28 | approving a withdrawal adds its cash amount to `totalPayments`, unless it was already approved |
| Stats.Worker | server/routes/stats.js:47-63 | pending plus approved never exceed the worker's total, which never exceeds the number of submissions |
| Stats.ApproveMovesEarnings | server/routes/stats.js:51-63 | approving adds the pay to the worker's `totalEarnings` and one to its approved count unless the submission was already approved; the total count stays |
| Stats.DoubleApproveOutrunsEarnings | server/routes/stats.js:56-63 | after a double approval of a pending submission the balance has risen by twice the pay but `totalEarnings` only by the pay |
| Stats.Buyer | server/routes/stats.js:81-94 | the task and pending counts are bounded by the collections, and with no submissions both the pending count and `totalPayment` are 0 |
| Stats.Public | server/routes/stats.js:111-113 | user and task totals are the collection sizes; completed tasks never exceed the submissions |
| Stats.ApproveMovesBuyerPayment | server/routes/stats.js:81-94 | approving a submission not yet approved adds its pay to its buyer's `totalPayment`; a pending one also leaves `pendingReviews`; `totalTasks` stays |
| Stats.RejectMovesBuyerStats | server/routes/stats.js:81-94 | rejecting a pending submission lowers its buyer's `pendingReviews` by one; rejecting an approved one takes its pay out of `totalPayment` |
| Stats.ApproveMovesCompleted | server/routes/stats.js:111-113 | approving a submission not yet approved adds one to `completedTasks`; approving it again adds nothing |
| Notifications.ListFor | server/routes/notifications.js:12-17 | at most 20 notifications, all the recipient's, as many as it has up to 20, newest first, and none left out is newer than one listed |
| Notifications.MarkRead | server/routes/notifications.js:28 | only the first notification with that id becomes read, and every other position keeps its notification; an unknown id changes nothing; no other collection changes |
| Notifications.MarkReadIdempotent | server/routes/notifications.js:28 | marking the same notification twice leaves what once left |
| Notifications.ReadAll | server/routes/notifications.js:39 | every notification to that email becomes read with nothing else changed; every other recipient's stays as it was |
| Notifications.ReadAllIdempotent | server/routes/notifications.js:39 | marking all twice leaves what once left |
| Notifications.ReadAllEmptiesListing | server/routes/notifications.js:12-17 | after marking all, the recipient's listing has no unread entry and is as long as before |
| NotificationContext.UnreadCount | contexts/notification-context.tsx:64 | at most the list length, and 0 exactly when every entry is read |
| NotificationContext.Add | contexts/notification-context.tsx:66-73 | the draft, unread, with the new id, goes in front; the old list is the tail; unread grows by one |
| NotificationContext.MarkAsRead | contexts/notification-context.tsx:75-77 | every entry with that id becomes read; other entries and the order stay |
| NotificationContext.MarkAsReadNeverRaisesUnread | contexts/notification-context.tsx:75-77 | the unread count never rises |
| NotificationContext.MarkAsReadLowersUnread | contexts/notification-context.tsx:75-77 | marking an unread entry lowers the unread count |
| NotificationContext.MarkAsReadIdempotent | contexts/notification-context.tsx:75-77 | marking twice is marking once |
| NotificationContext.MarkAllAsRead | contexts/notification-context.tsx:79-81 | every entry becomes read, all other fields and the order stay |
| NotificationContext.MarkAllAsReadClearsUnread | contexts/notification-context.tsx:79-81 | afterwards nothing is unread, messages are unchanged, and repeating changes nothing |
| NotificationContext.Clear | contexts/notification-context.tsx:83-85 | the list is empty and nothing is unread |
| NotificationContext.InitialUnread | contexts/notification-context.tsx:26-62 | the provider starts with three unread notifications |
| Platform.StepMovesTotalByFlow | server/routes/tasks.js:60-126 | for every writing request the coin total changes by exactly its flow: −cost for a funded task, +refund for a positive refund, +pay for an approval or a rejection, −coins for a withdrawal request, ±coins for the admin endpoint, −balance for a deleted account, +starting coins for a sign-up, and 0 for everything else |
| Platform.RunMovesTotalByFlow | server/routes/submissions.js:136-179 | along any sequence of requests the total moves by the sum of the flows |
| Platform.StepKeepsFunded | server/routes/submissions.js:86-107 | no request lets a task's slot counter pass its quantity (or 0 for a quantity under 0) |
| Platform.RunKeepsFunded | server/routes/submissions.js:87 | the slot invariant holds along any sequence of requests |
| Platform.StepKeepsEmailsUnique | server/routes/auth.js:15-18 | no request creates a second account for an email |
| Traces.RejectThenDeleteRefundsTwice | server/routes/tasks.js:120-126 | funding a one-slot task at 10, taking the slot, rejecting it and deleting the task leaves the buyer at 110 from 100 and the total 10 higher |
| Traces.DoubleRejectOverbooks | server/routes/submissions.js:168-179 | rejecting one submission twice lets a one-slot task hold two more workers' pending submissions while its counter reads full, and refunds the buyer twice |
| Scenarios.ScenarioCreate | server/routes/tasks.js:60-85 | 5 slots at 10 cost a 100-coin buyer 50; the task starts with 0 taken |
| Scenarios.ScenarioSubmitApprove | server/routes/submissions.js:104-141 | a submission takes a slot; approving it pays the worker 10 and keeps the count at 1 |
| Scenarios.ScenarioSubmitReject | server/routes/submissions.js:169-179 | a second submission and its rejection return the count to 1 and refund the buyer 10 |
| Scenarios.ScenarioDelete | server/routes/tasks.js:120-134 | deleting with 1 of 5 taken refunds 40 and removes the task's submissions |
| Scenarios.ScenarioWithdrawShort | server/routes/withdrawals.js:41-44 | 150 coins cannot cash out 200 |
| Scenarios.ScenarioWithdraw | server/routes/withdrawals.js:47-65 | 250 coins cash out 200, leaving 50 and a pending request |

## Left out

- HTTP, Express wiring, the MongoDB connection and the auth middleware (`verifyToken`, `verifyBuyer`, `verifyAdmin`) are not modelled: every handler is called as if the caller passed the middleware.
- bcrypt and JWT are opaque. `Auth.Register` takes the hash as a parameter, and `Auth.Login` takes the password comparison as a predicate. Token generation and GET /auth/me are not modelled.
- ObjectId generation and parsing are out: ids are natural numbers passed in. A malformed id, which throws in the source and answers 500, is not modelled. A submission's `task_id`, which the source stores as the request's string, is the task's id.
- Clock readings (`new Date()`) are parameters.
- Fields the ledger never reads are dropped: names, photo URLs, images, completion dates and submission details.
- Notification message text is replaced by a `NoticeKind` recording the event and its amount.
- Pagination string parsing (submissions.js:12-24) is out. `Submissions.ForWorker` takes the skip count and limit as numbers, and the `pages` figure is not computed.
- `withdraw_amount` is a client-computed decimal in the source. It is an integer stored as sent.
- Amounts are integers. `task_quantity`, `payable_amount`, `coins` and `withdraw_coin` come from request bodies as JavaScript numbers (tasks.js:60-69, withdrawals.js:38-52, users.js:67-71). The model makes them unbounded integers. So it does not cover fractional amounts and their floating-point costs. It also does not cover a missing amount: the cost is then NaN, the balance check at tasks.js:64 passes, and the `$inc` corrupts the balance. A string amount is not covered either: `$inc` rejects it and the handler answers 500. The ledger theorems hold for integer amounts only.
- Tasks.Update: the three fields are always strings. In the source, a field missing from the PUT body (tasks.js:97-101) is undefined. The client at server/config/db.js:15-21 does not set `ignoreUndefined`, so `$set` writes it as `null`. The model cannot express a missing field.
- NotificationContext.Initial keeps the ids, recipients, routes and read flags of the four mock notifications. The message texts are shortened. The times, which the source computes from the clock, are labels.
- Concurrency is not modelled. Each handler is one atomic step, so the check-then-act races in task creation, submission and withdrawal request are not represented.
- The admin user listing (users.js:9-19) only hides the password field, so it is not modelled.
- The React pages and components and contexts/auth-context.tsx are UI mocks, not the ledger.
- Stats.Admin: the contract bounds the counts. How each count and sum moves is stated by `Stats.RegisterMovesAdminStats` and `Stats.ApproveMovesPayments`, not by an independent closed form.
- Stats.Worker: the contract bounds the counts. How earnings move is stated by `Stats.ApproveMovesEarnings`.
- Stats.Buyer: the contract states bounds and the empty case only. How `totalPayment` and `pendingReviews` move is stated by `Stats.ApproveMovesBuyerPayment` and `Stats.RejectMovesBuyerStats`, as for the other figures.
- Stats.Public: the contract bounds `completedTasks` by the submissions. How it moves is stated by `Stats.ApproveMovesCompleted`.
- Submissions.Reject: the contract covers status, documents and notice. The ledger and slot effects are stated by `Submissions.RejectApplies`, `Submissions.RejectReleasesSlot` and `Submissions.RejectRefundsBuyer`.

=== FILE: auth.dfy ===
/** The account routes of server/routes/auth.js: registration and Google
    sign-in create users with a role-dependent starting balance; login checks
    a password against the stored hash. Hashing, its comparison and token
    signing are opaque: the hash is a parameter and the comparison a predicate. */
module Auth {
  import opened Collection
  import opened Store

  const WorkerStartingCoins: int := 10
  const BuyerStartingCoins: int := 50

  /** The balance a new account starts with: 10 for a worker, 50 for a buyer,
      nothing for any other role. */
  function StartingCoins(role: string): (r: int)
    ensures role == WorkerRole ==> r == WorkerStartingCoins
    ensures role == BuyerRole ==> r == BuyerStartingCoins
    ensures role != WorkerRole && role != BuyerRole ==> r == 0
  {
    if role == WorkerRole then WorkerStartingCoins
    else if role == BuyerRole then BuyerStartingCoins
    else 0
  }

  function UserEmail(u: User): Email { u.email }

  /** POST /auth/register. An email already registered is refused and nothing
      is stored; otherwise the new account gets exactly the given email and
      role, the password hash, and the role's starting coins. */
  function Register(st: State, email: Email, passwordHash: string, role: string, id: Id): (r: Reply<User>)
    ensures r.result == Err(UserExists) <==> FindUser(st.users, email).Some?
    ensures r.result.Err? ==> r.post == st
    ensures r.result.Ok? ==>
              var u := r.result.value;
              && u == User(id, email, passwordHash, role, StartingCoins(role))
              && r.post.users == st.users + [u]
              && r.post.tasks == st.tasks && r.post.submissions == st.submissions
              && r.post.withdrawals == st.withdrawals && r.post.notices == st.notices
  {
    match FindUser(st.users, email)
    case Some(_) => Reply(Err(UserExists), st)
    case None =>
      var u := User(id, email, passwordHash, role, StartingCoins(role));
      Reply(Ok(u), st.(users := st.users + [u]))
  }

  /** Appending an account whose email is new: that email now reads the new
      balance and every other email reads as before. */
  lemma AppendNewAccount(users: seq<User>, u: User)
    requires FindUser(users, u.email).None?
    ensures CoinsOf(users + [u], u.email) == Some(u.coins)
    ensures forall e :: e != u.email ==> CoinsOf(users + [u], e) == CoinsOf(users, e)
    ensures TotalCoins(users + [u]) == TotalCoins(users) + u.coins
  {
    var s := users + [u];
    FindIndexFirst(s, UserByEmail(u.email), |users|);
    forall e | e != u.email ensures CoinsOf(s, e) == CoinsOf(users, e) {
      match FindIndex(users, UserByEmail(e))
      case None =>
        assert forall j :: 0 <= j < |s| ==> !UserByEmail(e)(s[j]);
        assert FindIndex(s, UserByEmail(e)).None?;
      case Some(k) =>
        FindIndexFirst(s, UserByEmail(e), k);
    }
    SumAppend(users, [u], Coins);
  }

  /** A registered account reads exactly its starting balance, and no other
      balance moves. */
  lemma RegisterStartingBalance(st: State, email: Email, passwordHash: string, role: string, id: Id)
    requires FindUser(st.users, email).None?
    ensures var post := Register(st, email, passwordHash, role, id).post;
      && CoinsOf(post.users, email) == Some(StartingCoins(role))
      && (forall e :: e != email ==> CoinsOf(post.users, e) == CoinsOf(st.users, e))
  {
    AppendNewAccount(st.users, User(id, email, passwordHash, role, StartingCoins(role)));
  }

  /** The unique index on `email` is never violated by registration. */
  lemma RegisterKeepsEmailsUnique(st: State, email: Email, passwordHash: string, role: string, id: Id)
    requires Unique(st.users, UserEmail)
    ensures Unique(Register(st, email, passwordHash, role, id).post.users, UserEmail)
  {
    var post := Register(st, email, passwordHash, role, id).post;
    if FindUser(st.users, email).None? {
      forall i, j | 0 <= i < j < |post.users| ensures UserEmail(post.users[i]) != UserEmail(post.users[j]) {
        if j == |st.users| {
          assert !UserByEmail(email)(st.users[i]);
        }
      }
    }
  }

  /** POST /auth/login. Unknown email and a failed password comparison both
      answer "invalid credentials"; otherwise the stored account is returned.
      Nothing is stored. */
  function Login(st: State, email: Email, password: string, matches: (string, string) -> bool): (r: Result<User>)
    ensures FindUser(st.users, email).None? ==> r == Err(InvalidCredentials)
    ensures r.Ok? <==>
              FindUser(st.users, email).Some? && matches(password, FindUser(st.users, email).value.passwordHash)
    ensures r.Ok? ==> r.value in st.users && r.value.email == email
    ensures r.Err? ==> r.error == InvalidCredentials
  {
    match FindUser(st.users, email)
    case None => Err(InvalidCredentials)
    case Some(u) => if matches(password, u.passwordHash) then Ok(u) else Err(InvalidCredentials)
  }

  /** POST /auth/google. An existing email signs in as the stored account and
      nothing is stored; a new email creates an account with an empty password
      and the same role-to-coins rule as registration. */
  function GoogleSignIn(st: State, email: Email, role: string, id: Id): (r: Reply<User>)
    ensures r.result.Ok?
    ensures FindUser(st.users, email).Some? ==> r == Reply(Ok(FindUser(st.users, email).value), st)
    ensures FindUser(st.users, email).None? ==>
              var u := r.result.value;
              && u == User(id, email, "", role, StartingCoins(role))
              && r.post == st.(users := st.users + [u])
  {
    match FindUser(st.users, email)
    case Some(u) => Reply(Ok(u), st)
    case None =>
      var u := User(id, email, "", role, StartingCoins(role));
      Reply(Ok(u), st.(users := st.users + [u]))
  }

  /** Signing in again with a registered email creates nothing and leaves that
      account's balance as it was, whatever role the request names. */
  lemma GoogleExistingKeepsBalance(st: State, email: Email, role: string, id: Id)
    requires FindUser(st.users, email).Some?
    ensures var r := GoogleSignIn(st, email, role, id);
      && r.post.users == st.users
      && CoinsOf(r.post.users, email) == CoinsOf(st.users, email)
      && r.result.value.coins == CoinsOf(st.users, email).value
  {
  }

  /** A first Google sign-in starts the account with the role's starting coins. */
  lemma GoogleNewStartingBalance(st: State, email: Email, role: string, id: Id)
    requires FindUser(st.users, email).None?
    ensures var post := GoogleSignIn(st, email, role, id).post;
      && CoinsOf(post.users, email) == Some(StartingCoins(role))
      && (forall e :: e != email ==> CoinsOf(post.users, e) == CoinsOf(st.users, e))
  {
    AppendNewAccount(st.users, User(id, email, "", role, StartingCoins(role)));
  }
}

=== FILE: collection.dfy ===
/** Document-collection primitives in the shape the route handlers use them:
    a collection is a sequence of documents in insertion order, and every
    query, update and delete below acts on it the way the corresponding
    MongoDB call does (findOne / updateOne / deleteOne act on the FIRST
    matching document, updateMany / deleteMany / find on all of them). */
module Collection {

  datatype Option<+T> = None | Some(value: T)

  /** Position of the first document satisfying `p` (the document findOne returns). */
  function FindIndex<T>(s: seq<T>, p: T -> bool): (r: Option<nat>)
    ensures r.Some? ==> r.value < |s| && p(s[r.value])
    ensures r.Some? ==> forall j :: 0 <= j < r.value ==> !p(s[j])
    ensures r.None? ==> forall j :: 0 <= j < |s| ==> !p(s[j])
    decreases |s|
  {
    if |s| == 0 then None
    else if p(s[0]) then Some(0)
    else match FindIndex(s[1..], p)
      case None => None
      case Some(i) => Some(i + 1)
  }

  /** findOne: the first matching document, if any. */
  function FindOne<T>(s: seq<T>, p: T -> bool): (r: Option<T>)
    ensures r.Some? <==> exists j :: 0 <= j < |s| && p(s[j])
    ensures r.Some? ==> r.value in s && p(r.value)
  {
    match FindIndex(s, p)
    case None => None
    case Some(i) => Some(s[i])
  }

  /** The first index of `p` is unchanged when a position is overwritten by a
      document that `p` classifies the same way. */
  lemma {:induction false} FindIndexUpdate<T>(s: seq<T>, p: T -> bool, i: nat, x: T)
    requires i < |s|
    requires p(x) == p(s[i])
    ensures FindIndex(s[i := x], p) == FindIndex(s, p)
  {
    var t := s[i := x];
    match FindIndex(s, p)
    case None =>
      assert forall j :: 0 <= j < |t| ==> !p(t[j]);
    case Some(k) =>
      assert p(t[k]);
      assert forall j :: 0 <= j < k ==> !p(t[j]);
      FindIndexFirst(t, p, k);
  }

  /** Any position that matches and has no earlier match is the first index. */
  lemma FindIndexFirst<T>(s: seq<T>, p: T -> bool, k: nat)
    requires k < |s| && p(s[k])
    requires forall j :: 0 <= j < k ==> !p(s[j])
    ensures FindIndex(s, p) == Some(k)
  {
    match FindIndex(s, p)
    case None =>
    case Some(i) =>
  }

  /** updateOne: apply `f` to the first matching document; no match, no change. */
  function UpdateOne<T>(s: seq<T>, p: T -> bool, f: T -> T): (r: seq<T>)
    ensures |r| == |s|
    ensures FindIndex(s, p).None? ==> r == s
    ensures FindIndex(s, p).Some? ==>
              var k := FindIndex(s, p).value;
              r[k] == f(s[k]) && forall j :: 0 <= j < |s| && j != k ==> r[j] == s[j]
  {
    match FindIndex(s, p)
    case None => s
    case Some(i) => s[i := f(s[i])]
  }

  /** updateMany, and also JavaScript's `map` with a conditional: apply `f` to
      every matching document, leave the others as they are. */
  function UpdateMany<T>(s: seq<T>, p: T -> bool, f: T -> T): (r: seq<T>)
    ensures |r| == |s|
    ensures forall j :: 0 <= j < |s| ==> r[j] == if p(s[j]) then f(s[j]) else s[j]
  {
    seq(|s|, j requires 0 <= j < |s| => if p(s[j]) then f(s[j]) else s[j])
  }

  /** deleteOne: drop the first matching document; no match, no change. */
  function DeleteOne<T>(s: seq<T>, p: T -> bool): (r: seq<T>)
    ensures FindIndex(s, p).None? ==> r == s
    ensures FindIndex(s, p).Some? ==>
              var k := FindIndex(s, p).value;
              |r| == |s| - 1 && r == s[..k] + s[k + 1..]
  {
    match FindIndex(s, p)
    case None => s
    case Some(i) => s[..i] + s[i + 1..]
  }

  /** deleteOne removes one copy of the first match and nothing else. */
  lemma DeleteOneMultiset<T>(s: seq<T>, p: T -> bool)
    requires FindIndex(s, p).Some?
    ensures multiset(DeleteOne(s, p)) == multiset(s) - multiset{s[FindIndex(s, p).value]}
  {
    var k := FindIndex(s, p).value;
    hide DeleteOne, FindIndex;
    MultisetRemove(s, k);
  }

  lemma MultisetRemove<T>(s: seq<T>, i: nat)
    requires i < |s|
    ensures multiset(s[..i] + s[i + 1..]) == multiset(s) - multiset{s[i]}
  {
    var a, b := s[..i], s[i + 1..];
    assert s == a + [s[i]] + b;
    assert multiset(s) == multiset(a) + multiset{s[i]} + multiset(b);
    assert multiset(a + b) == multiset(a) + multiset(b);
  }

  /** find(filter): the matching documents in collection order. deleteMany(p)
      leaves exactly Filter(s, x => !p(x)). */
  function Filter<T>(s: seq<T>, p: T -> bool): (r: seq<T>)
    ensures |r| <= |s|
    ensures forall j :: 0 <= j < |r| ==> p(r[j])
    ensures forall j :: 0 <= j < |s| && p(s[j]) ==> s[j] in r
    ensures multiset(r) <= multiset(s)
    decreases |s|
  {
    if |s| == 0 then []
    else
      assert s == [s[0]] + s[1..];
      (if p(s[0]) then [s[0]] else []) + Filter(s[1..], p)
  }

  /** Membership in a filtered collection, element by element. */
  lemma FilterMember<T>(s: seq<T>, p: T -> bool, x: T)
    ensures x in Filter(s, p) <==> x in s && p(x)
  {
    var r := Filter(s, p);
    if x in r {
      var j :| 0 <= j < |r| && r[j] == x;
      assert x in multiset(r);
    }
    if x in s && p(x) {
      var j :| 0 <= j < |s| && s[j] == x;
    }
  }

  lemma FilterMembers<T>(s: seq<T>, p: T -> bool)
    ensures forall x :: x in Filter(s, p) <==> x in s && p(x)
  {
    forall x ensures x in Filter(s, p) <==> x in s && p(x) {
      FilterMember(s, p, x);
    }
  }

  /** countDocuments(filter). */
  function Count<T>(s: seq<T>, p: T -> bool): nat
  {
    |Filter(s, p)|
  }

  /** `$sum` of `v` over a whole collection; 0 when it is empty. */
  function Sum<T>(s: seq<T>, v: T -> int): int
    decreases |s|
  {
    if |s| == 0 then 0 else v(s[0]) + Sum(s[1..], v)
  }

  lemma {:induction false} SumAppend<T>(s: seq<T>, t: seq<T>, v: T -> int)
    ensures Sum(s + t, v) == Sum(s, v) + Sum(t, v)
    decreases |s|
  {
    if |s| == 0 {
      assert s + t == t;
    } else {
      assert (s + t)[1..] == s[1..] + t;
      SumAppend(s[1..], t, v);
    }
  }

  /** Overwriting one position changes the sum by the difference of the two values. */
  lemma {:induction false} SumUpdate<T>(s: seq<T>, i: nat, x: T, v: T -> int)
    requires i < |s|
    ensures Sum(s[i := x], v) == Sum(s, v) - v(s[i]) + v(x)
    decreases |s|
  {
    if i > 0 {
      assert s[i := x][1..] == s[1..][i - 1 := x];
      SumUpdate(s[1..], i - 1, x, v);
    }
  }

  /** Removing one position lowers the sum by that position's value. */
  lemma SumRemove<T>(s: seq<T>, i: nat, v: T -> int)
    requires i < |s|
    ensures Sum(s[..i] + s[i + 1..], v) == Sum(s, v) - v(s[i])
  {
    hide Sum;
    var a, b := s[..i], s[i + 1..];
    assert Sum(s, v) == Sum(a, v) + v(s[i]) + Sum(b, v) by {
      assert s == a + ([s[i]] + b);
      SumSingle(s[i], v);
      SumAppend(a, [s[i]] + b, v);
      SumAppend([s[i]], b, v);
    }
    assert Sum(a + b, v) == Sum(a, v) + Sum(b, v) by {
      SumAppend(a, b, v);
    }
  }

  lemma SumSingle<T>(x: T, v: T -> int)
    ensures Sum([x], v) == v(x)
  {
  }

  /** No two documents share a key (what a unique index guarantees). */
  ghost predicate Unique<T, K>(s: seq<T>, key: T -> K)
  {
    forall i, j :: 0 <= i < j < |s| ==> key(s[i]) != key(s[j])
  }

  /** `$match` then `$sum`: the sum of `v` over the matching documents. */
  function SumWhere<T>(s: seq<T>, p: T -> bool, v: T -> int): int
  {
    Sum(Filter(s, p), v)
  }

  lemma FilterCons<T>(s: seq<T>, p: T -> bool)
    requires |s| > 0
    ensures Filter(s, p) == (if p(s[0]) then [s[0]] else []) + Filter(s[1..], p)
  {
  }

  /** A filter every document passes keeps the whole collection. */
  lemma {:induction false} FilterKeepsAll<T>(s: seq<T>, p: T -> bool)
    requires forall j :: 0 <= j < |s| ==> p(s[j])
    ensures Filter(s, p) == s
    decreases |s|
  {
    hide Filter;
    if |s| > 0 {
      FilterCons(s, p);
      FilterKeepsAll(s[1..], p);
      assert s == [s[0]] + s[1..];
    }
  }

  /** A count, split at the first document. */
  lemma CountCons<T>(s: seq<T>, p: T -> bool)
    requires |s| > 0
    ensures Count(s, p) == (if p(s[0]) then 1 else 0) + Count(s[1..], p)
  {
    FilterCons(s, p);
  }

  /** A conditional sum, split at the first document. */
  lemma SumWhereCons<T>(s: seq<T>, p: T -> bool, v: T -> int)
    requires |s| > 0
    ensures SumWhere(s, p, v) == (if p(s[0]) then v(s[0]) else 0) + SumWhere(s[1..], p, v)
  {
    FilterCons(s, p);
    SumAppend(if p(s[0]) then [s[0]] else [], Filter(s[1..], p), v);
  }

  /** Overwriting one document changes a conditional sum by what the old
      document contributed and what the new one contributes. */
  lemma {:induction false} SumWhereUpdate<T>(s: seq<T>, i: nat, x: T, p: T -> bool, v: T -> int)
    requires i < |s|
    ensures SumWhere(s[i := x], p, v)
            == SumWhere(s, p, v) - (if p(s[i]) then v(s[i]) else 0) + (if p(x) then v(x) else 0)
    decreases |s|
  {
    hide SumWhere, Sum, Filter;
    var t := s[i := x];
    SumWhereCons(s, p, v);
    SumWhereCons(t, p, v);
    if i == 0 {
      assert t[1..] == s[1..];
    } else {
      assert t[0] == s[0];
      assert t[1..] == s[1..][i - 1 := x];
      SumWhereUpdate(s[1..], i - 1, x, p, v);
    }
  }

  /** Overwriting one document changes a count by the same rule. */
  lemma {:induction false} CountUpdate<T>(s: seq<T>, i: nat, x: T, p: T -> bool)
    requires i < |s|
    ensures Count(s[i := x], p) == Count(s, p) - (if p(s[i]) then 1 else 0) + (if p(x) then 1 else 0)
    decreases |s|
  {
    var t := s[i := x];
    assert Count(s, p) == (if p(s[0]) then 1 else 0) + Count(s[1..], p) by {
      FilterCons(s, p);
    }
    assert Count(t, p) == (if p(t[0]) then 1 else 0) + Count(t[1..], p) by {
      FilterCons(t, p);
    }
    hide Count, Filter;
    if i == 0 {
      assert t[1..] == s[1..];
    } else {
      assert t[1..] == s[1..][i - 1 := x];
      CountUpdate(s[1..], i - 1, x, p);
    }
  }

  /** Inserting one document at the end raises a count by one exactly when it matches. */
  lemma {:induction false} CountAppend<T>(s: seq<T>, x: T, p: T -> bool)
    ensures Count(s + [x], p) == Count(s, p) + (if p(x) then 1 else 0)
    decreases |s|
  {
    if |s| == 0 {
      assert s + [x] == [x];
      FilterCons([x], p);
    } else {
      var t := s + [x];
      assert t[0] == s[0] && t[1..] == s[1..] + [x];
      FilterCons(s, p);
      FilterCons(t, p);
      assert Count(s, p) == (if p(s[0]) then 1 else 0) + Count(s[1..], p);
      assert Count(t, p) == (if p(s[0]) then 1 else 0) + Count(t[1..], p);
      CountAppend(s[1..], x, p);
    }
  }

  /** Two filters whose matches never overlap, both inside a third, count no
      more than the third together. */
  lemma {:induction false} CountDisjoint<T>(s: seq<T>, p: T -> bool, q: T -> bool, all: T -> bool)
    requires forall x :: p(x) ==> !q(x)
    requires forall x :: p(x) || q(x) ==> all(x)
    ensures Count(s, p) + Count(s, q) <= Count(s, all)
    decreases |s|
  {
    if |s| > 0 {
      FilterCons(s, p);
      FilterCons(s, q);
      FilterCons(s, all);
      CountDisjoint(s[1..], p, q, all);
    }
  }

  /** Every element satisfies `p`; used to state what a query may return. */
  ghost predicate All<T>(s: seq<T>, p: T -> bool)
  {
    forall j :: 0 <= j < |s| ==> p(s[j])
  }

  ghost predicate SortedDesc<T>(s: seq<T>, key: T -> int)
  {
    forall i, j :: 0 <= i < j < |s| ==> key(s[i]) >= key(s[j])
  }

  /** Putting an element in front of a descending list keeps it descending
      when the element ranks at least as high as the old head. */
  lemma ConsSorted<T>(h: T, s: seq<T>, key: T -> int)
    requires SortedDesc(s, key)
    requires |s| > 0 ==> key(h) >= key(s[0])
    ensures SortedDesc([h] + s, key)
  {
    var r := [h] + s;
    forall i, j | 0 <= i < j < |r| ensures key(r[i]) >= key(r[j]) {
      if i == 0 {
        assert r[j] == s[j - 1];
      } else {
        assert r[i] == s[i - 1] && r[j] == s[j - 1];
      }
    }
  }

  lemma SortedSlice<T>(s: seq<T>, lo: nat, hi: nat, key: T -> int)
    requires lo <= hi <= |s|
    requires SortedDesc(s, key)
    ensures SortedDesc(s[lo..hi], key)
  {
    var r := s[lo..hi];
    forall i, j | 0 <= i < j < |r| ensures key(r[i]) >= key(r[j]) {
      assert r[i] == s[lo + i] && r[j] == s[lo + j];
    }
  }

  /** Insert `x` into a list kept in descending `key` order. */
  function Insert<T>(x: T, s: seq<T>, key: T -> int): (r: seq<T>)
    requires SortedDesc(s, key)
    ensures |r| == |s| + 1
    ensures multiset(r) == multiset(s) + multiset{x}
    ensures SortedDesc(r, key)
    ensures r[0] == x || (|s| > 0 && r[0] == s[0])
    decreases |s|
  {
    if |s| == 0 then [x]
    else if key(x) >= key(s[0]) then
      ConsSorted(x, s, key);
      [x] + s
    else
      assert SortedDesc(s[1..], key);
      var rest := Insert(x, s[1..], key);
      assert s == [s[0]] + s[1..];
      ConsSorted(s[0], rest, key);
      [s[0]] + rest
  }

  /** `.sort({ key: -1 })`: a permutation of `s` in descending `key` order. */
  function SortDesc<T>(s: seq<T>, key: T -> int): (r: seq<T>)
    ensures multiset(r) == multiset(s)
    ensures |r| == |s|
    ensures SortedDesc(r, key)
    decreases |s|
  {
    if |s| == 0 then []
    else
      assert s == [s[0]] + s[1..];
      Insert(s[0], SortDesc(s[1..], key), key)
  }

  /** `.find(p).sort({ key: -1 })`: exactly the matching documents, newest (highest key) first. */
  function FindSorted<T>(s: seq<T>, p: T -> bool, key: T -> int): (r: seq<T>)
    ensures multiset(r) == multiset(Filter(s, p))
    ensures |r| == |Filter(s, p)|
    ensures forall j :: 0 <= j < |r| ==> p(r[j])
    ensures SortedDesc(r, key)
  {
    var r := SortDesc(Filter(s, p), key);
    assert forall j :: 0 <= j < |r| ==> p(r[j]) by {
      forall j | 0 <= j < |r| ensures p(r[j]) {
        assert r[j] in multiset(Filter(s, p));
      }
    }
    r
  }

  /** Nothing matching is left out of a sorted query, and nothing else comes in. */
  lemma FindSortedMembers<T>(s: seq<T>, p: T -> bool, key: T -> int)
    ensures forall j :: 0 <= j < |s| && p(s[j]) ==> s[j] in FindSorted(s, p, key)
    ensures multiset(FindSorted(s, p, key)) <= multiset(s)
  {
    var r := FindSorted(s, p, key);
    forall j | 0 <= j < |s| && p(s[j]) ensures s[j] in r {
      assert s[j] in multiset(Filter(s, p));
    }
  }

  /** `.limit(n)`. */
  function Take<T>(s: seq<T>, n: nat): (r: seq<T>)
    ensures |r| == if |s| <= n then |s| else n
    ensures r == s[..|r|]
  {
    if |s| <= n then s else s[..n]
  }

  /** `.skip(skip).limit(limit)` on a query's results, `limit` 0 meaning no
      limit: the documents from position `skip` on, at most `limit` of them. */
  function Page<T>(s: seq<T>, skip: nat, limit: nat): (r: seq<T>)
    ensures limit > 0 ==> |r| <= limit
    ensures |r| > 0 ==> skip + |r| <= |s|
    ensures forall j :: 0 <= j < |r| ==> r[j] == s[skip + j]
    ensures skip < |s| && (limit == 0 || skip + limit > |s|) ==> |r| == |s| - skip
    ensures skip + limit <= |s| && limit > 0 ==> |r| == limit
  {
    var lo := if skip <= |s| then skip else |s|;
    var hi := if limit == 0 || |s| - lo <= limit then |s| else lo + limit;
    s[lo..hi]
  }

  /** A page is drawn from the stored documents: nothing is made up or repeated. */
  lemma PageWithin<T>(s: seq<T>, skip: nat, limit: nat)
    ensures multiset(Page(s, skip, limit)) <= multiset(s)
  {
    var lo := if skip <= |s| then skip else |s|;
    var hi := if limit == 0 || |s| - lo <= limit then |s| else lo + limit;
    assert s == s[..lo] + s[lo..hi] + s[hi..];
  }

  lemma PageSorted<T>(s: seq<T>, skip: nat, limit: nat, key: T -> int)
    requires SortedDesc(s, key)
    ensures SortedDesc(Page(s, skip, limit), key)
  {
    var r := Page(s, skip, limit);
    forall i, j | 0 <= i < j < |r| ensures key(r[i]) >= key(r[j]) {
      assert r[i] == s[skip + i] && r[j] == s[skip + j];
    }
  }

  /** `.find(p).sort({ key: -1 }).limit(n)`. */
  function Top<T>(s: seq<T>, p: T -> bool, key: T -> int, n: nat): seq<T>
  {
    Take(FindSorted(s, p, key), n)
  }

  /** What a sorted, limited query promises: at most `n` results, each one a
      matching document, in descending key order, as many as there are matches
      up to `n`, and no matching document left out ranks above one returned. */
  lemma TopSpec<T>(s: seq<T>, p: T -> bool, key: T -> int, n: nat)
    ensures var r := Top(s, p, key, n);
      && |r| <= n
      && |r| == (if Count(s, p) <= n then Count(s, p) else n)
      && (forall x :: x in r ==> x in s && p(x))
      && SortedDesc(r, key)
      && (forall x, y :: x in s && p(x) && x !in r && y in r ==> key(y) >= key(x))
  {
    var sorted := FindSorted(s, p, key);
    var r := Take(sorted, n);
    assert r == Top(s, p, key, n);
    assert Count(s, p) == |sorted|;
    SortedSlice(sorted, 0, |r|, key);
    TopMembers(s, p, key, n);
    TopRanks(s, p, key, n);
  }

  lemma TopMembers<T>(s: seq<T>, p: T -> bool, key: T -> int, n: nat)
    ensures forall x :: x in Top(s, p, key, n) ==> x in s && p(x)
  {
    var sorted := FindSorted(s, p, key);
    var r := Take(sorted, n);
    assert r == Top(s, p, key, n);
    hide Top, Take, FindSorted;
    forall x | x in r ensures x in s && p(x) {
      assert x in sorted;
      assert x in multiset(Filter(s, p));
    }
  }

  lemma TopRanks<T>(s: seq<T>, p: T -> bool, key: T -> int, n: nat)
    ensures var r := Top(s, p, key, n);
      forall x, y :: x in s && p(x) && x !in r && y in r ==> key(y) >= key(x)
  {
    var sorted := FindSorted(s, p, key);
    var r := Take(sorted, n);
    assert r == Top(s, p, key, n);
    hide Top, Take, FindSorted;
    forall x, y | x in s && p(x) && x !in r && y in r ensures key(y) >= key(x) {
      assert x in multiset(Filter(s, p));
      assert x in sorted;
      var j :| 0 <= j < |sorted| && sorted[j] == x;
      var i :| 0 <= i < |r| && r[i] == y;
      assert j >= |r|;
    }
  }
}

=== FILE: notification_context.dfy ===
/** The client-side notification store of contexts/notification-context.tsx:
    a list held in React state, newest first, with an unread counter derived
    from it and four updates. Each update is modelled as the pure function
    that the `setNotifications` callback applies to the previous list. */
module NotificationContext {
  import opened Collection

  /** The client's notification record; ids and times are strings there. */
  datatype Notification = Notification(
    id: string,
    message: string,
    toEmail: string,
    actionRoute: string,
    time: string,
    read: bool)

  /** What a caller hands to `addNotification`: a notification without id and read flag. */
  datatype Draft = Draft(message: string, toEmail: string, actionRoute: string, time: string)

  function IsUnread(n: Notification): bool { !n.read }

  function HasId(id: string): Notification -> bool { (n: Notification) => n.id == id }

  function SetRead(n: Notification): Notification { n.(read := true) }

  function Always(n: Notification): bool { true }

  /** The four notifications the provider starts with, three of them unread. */
  const Initial: seq<Notification> := [
    Notification("1", "earned", "worker@example.com", "/dashboard", "t-5m", false),
    Notification("2", "withdrawal approved", "worker@example.com", "/dashboard/withdrawals", "t-30m", false),
    Notification("3", "submission received", "buyer@example.com", "/dashboard", "t-1h", false),
    Notification("4", "submission rejected", "worker@example.com", "/dashboard/my-submissions", "t-2h", true)]

  /** `unreadCount`: how many notifications have not been read. */
  function UnreadCount(ns: seq<Notification>): (r: nat)
    ensures r <= |ns|
    ensures r == 0 <==> forall j :: 0 <= j < |ns| ==> ns[j].read
  {
    FilterMembers(ns, IsUnread);
    assert Count(ns, IsUnread) > 0 ==> exists j :: 0 <= j < |ns| && !ns[j].read by {
      if Count(ns, IsUnread) > 0 {
        assert Filter(ns, IsUnread)[0] in ns;
      }
    }
    Count(ns, IsUnread)
  }

  /** `addNotification`: the draft with a fresh id (the clock's reading, a
      parameter here) and unread, in front of the previous list. */
  function Add(ns: seq<Notification>, d: Draft, id: string): (r: seq<Notification>)
    ensures |r| == |ns| + 1
    ensures r[0] == Notification(id, d.message, d.toEmail, d.actionRoute, d.time, false)
    ensures r[1..] == ns
    ensures UnreadCount(r) == UnreadCount(ns) + 1
  {
    var n := Notification(id, d.message, d.toEmail, d.actionRoute, d.time, false);
    var r := [n] + ns;
    FilterCons(r, IsUnread);
    assert r[1..] == ns;
    r
  }

  /** `markAsRead(id)`: every entry with that id becomes read (the client does
      not stop at the first); every other entry and the order stay. */
  function MarkAsRead(ns: seq<Notification>, id: string): (r: seq<Notification>)
    ensures |r| == |ns|
    ensures forall j :: 0 <= j < |ns| && ns[j].id == id ==> r[j] == ns[j].(read := true)
    ensures forall j :: 0 <= j < |ns| && ns[j].id != id ==> r[j] == ns[j]
  {
    UpdateMany(ns, HasId(id), SetRead)
  }

  /** `markAllAsRead`: every entry becomes read; ids, messages, recipients,
      routes, times and the order stay. */
  function MarkAllAsRead(ns: seq<Notification>): (r: seq<Notification>)
    ensures |r| == |ns|
    ensures forall j :: 0 <= j < |ns| ==> r[j] == ns[j].(read := true)
  {
    UpdateMany(ns, Always, SetRead)
  }

  /** `clearNotifications`. */
  function Clear(ns: seq<Notification>): (r: seq<Notification>)
    ensures r == [] && UnreadCount(r) == 0
  {
    []
  }

  /** Marking read only ever turns unread entries into read ones, so the
      unread count cannot rise. */
  lemma {:induction false} OnlyMarkedRead(s: seq<Notification>, t: seq<Notification>)
    requires |s| == |t|
    requires forall j :: 0 <= j < |s| ==> t[j] == s[j] || t[j] == s[j].(read := true)
    ensures UnreadCount(t) <= UnreadCount(s)
    decreases |s|
  {
    if |s| > 0 {
      FilterCons(s, IsUnread);
      FilterCons(t, IsUnread);
      assert Count(s, IsUnread) == (if !s[0].read then 1 else 0) + Count(s[1..], IsUnread);
      assert Count(t, IsUnread) == (if !t[0].read then 1 else 0) + Count(t[1..], IsUnread);
      OnlyMarkedRead(s[1..], t[1..]);
    }
  }

  lemma MarkAsReadNeverRaisesUnread(ns: seq<Notification>, id: string)
    ensures UnreadCount(MarkAsRead(ns, id)) <= UnreadCount(ns)
  {
    OnlyMarkedRead(ns, MarkAsRead(ns, id));
  }

  /** Marking an unread entry read lowers the count by at least one. */
  lemma MarkAsReadLowersUnread(ns: seq<Notification>, j: nat)
    requires j < |ns| && !ns[j].read
    ensures UnreadCount(MarkAsRead(ns, ns[j].id)) < UnreadCount(ns)
  {
    FewerWhenOneMarked(ns, MarkAsRead(ns, ns[j].id), j);
  }

  lemma {:induction false} FewerWhenOneMarked(s: seq<Notification>, t: seq<Notification>, j: nat)
    requires |s| == |t|
    requires forall i :: 0 <= i < |s| ==> t[i] == s[i] || t[i] == s[i].(read := true)
    requires j < |s| && !s[j].read && t[j].read
    ensures UnreadCount(t) < UnreadCount(s)
    decreases |s|
  {
    FilterCons(s, IsUnread);
    FilterCons(t, IsUnread);
    assert Count(s, IsUnread) == (if !s[0].read then 1 else 0) + Count(s[1..], IsUnread);
    assert Count(t, IsUnread) == (if !t[0].read then 1 else 0) + Count(t[1..], IsUnread);
    if j == 0 {
      OnlyMarkedRead(s[1..], t[1..]);
    } else {
      FewerWhenOneMarked(s[1..], t[1..], j - 1);
    }
  }

  lemma MarkAsReadIdempotent(ns: seq<Notification>, id: string)
    ensures MarkAsRead(MarkAsRead(ns, id), id) == MarkAsRead(ns, id)
  {
  }

  /** After marking all read nothing is unread, and the messages are the same
      messages in the same order. */
  lemma MarkAllAsReadClearsUnread(ns: seq<Notification>)
    ensures UnreadCount(MarkAllAsRead(ns)) == 0
    ensures forall j :: 0 <= j < |ns| ==> MarkAllAsRead(ns)[j].message == ns[j].message
    ensures MarkAllAsRead(MarkAllAsRead(ns)) == MarkAllAsRead(ns)
  {
  }

  /** The starting list reports three unread notifications. */
  lemma InitialUnread()
    ensures UnreadCount(Initial) == 3
  {
    var s := Initial;
    assert s == [s[0], s[1], s[2], s[3]];
    assert !s[0].read && !s[1].read && !s[2].read && s[3].read;
    ThreeOfFour(s[0], s[1], s[2], s[3]);
    assert UnreadCount(s) == Count(s, IsUnread);
  }

  lemma ThreeOfFour(a: Notification, b: Notification, c: Notification, d: Notification)
    requires !a.read && !b.read && !c.read && d.read
    ensures Count([a, b, c, d], IsUnread) == 3
  {
    var s3: seq<Notification> := [d];
    var s2 := [c] + s3;
    var s1 := [b] + s2;
    var s0 := [a] + s1;
    assert s0 == [a, b, c, d];
    assert Count([], IsUnread) == 0;
    hide Count, Filter;
    UnreadCons(d, []);
    assert [d] + [] == s3;
    UnreadCons(c, s3);
    UnreadCons(b, s2);
    UnreadCons(a, s1);
  }

  lemma UnreadCons(x: Notification, rest: seq<Notification>)
    ensures Count([x] + rest, IsUnread) == (if x.read then 0 else 1) + Count(rest, IsUnread)
  {
    CountCons([x] + rest, IsUnread);
    assert ([x] + rest)[1..] == rest;
  }
}

=== FILE: notifications.dfy ===
/** The notification routes of server/routes/notifications.js: a recipient's
    latest notifications, and marking one or all of them read. */
module Notifications {
  import opened Collection
  import opened Store

  /** The listing's `.limit(20)`. */
  const ListLimit: nat := 20

  function NoticeTime(n: Notice): int { n.time }

  function NoticeTo(e: Email): Notice -> bool { (n: Notice) => n.toEmail == e }

  function SetRead(n: Notice): Notice { n.(read := true) }

  /** GET /notifications/:email: that recipient's notifications, newest first,
      at most twenty of them, and none older than a notification left out. */
  function ListFor(st: State, e: Email): (r: seq<Notice>)
    ensures |r| <= ListLimit
    ensures |r| == if Count(st.notices, NoticeTo(e)) <= ListLimit then Count(st.notices, NoticeTo(e)) else ListLimit
    ensures forall n :: n in r ==> n in st.notices && n.toEmail == e
    ensures SortedDesc(r, NoticeTime)
    ensures forall n, m :: n in st.notices && n.toEmail == e && n !in r && m in r ==> m.time >= n.time
  {
    TopSpec(st.notices, NoticeTo(e), NoticeTime, ListLimit);
    Top(st.notices, NoticeTo(e), NoticeTime, ListLimit)
  }

  /** PATCH /notifications/:id/read. Sets `read` on the notification with that
      id and on nothing else; an unknown id changes nothing. The answer is
      success either way. */
  function MarkRead(st: State, id: Id): (r: Reply<()>)
    ensures r.result == Ok(())
    ensures |r.post.notices| == |st.notices|
    ensures forall j :: 0 <= j < |st.notices| ==>
              r.post.notices[j] == st.notices[j] ||
              (st.notices[j].id == id && r.post.notices[j] == st.notices[j].(read := true))
    ensures FindIndex(st.notices, NoticeById(id)).Some? ==>
              forall j :: 0 <= j < |st.notices| && j != FindIndex(st.notices, NoticeById(id)).value ==>
                r.post.notices[j] == st.notices[j]
    ensures FindOne(st.notices, NoticeById(id)).None? ==> r.post == st
    ensures FindOne(st.notices, NoticeById(id)).Some? ==>
              FindOne(r.post.notices, NoticeById(id)) == Some(FindOne(st.notices, NoticeById(id)).value.(read := true))
    ensures r.post.users == st.users && r.post.tasks == st.tasks
    ensures r.post.submissions == st.submissions && r.post.withdrawals == st.withdrawals
  {
    var ns := UpdateOne(st.notices, NoticeById(id), SetRead);
    match FindIndex(st.notices, NoticeById(id))
    case None => Reply(Ok(()), st)
    case Some(k) =>
      FindIndexUpdate(st.notices, NoticeById(id), k, ns[k]);
      Reply(Ok(()), st.(notices := ns))
  }

  /** Marking the same notification read twice leaves what marking it once left. */
  lemma MarkReadIdempotent(st: State, id: Id)
    ensures MarkRead(MarkRead(st, id).post, id) == MarkRead(st, id)
  {
    var once := MarkRead(st, id).post;
    var twice := MarkRead(once, id).post;
    assert twice.notices == once.notices by {
      forall j | 0 <= j < |once.notices| ensures twice.notices[j] == once.notices[j] {
        if st.notices[j].id == id {
          assert once.notices[j].read || once.notices[j] == st.notices[j];
        }
      }
    }
  }

  /** PATCH /notifications/read-all/:email. Every notification addressed to
      that email becomes read, with nothing else about it changed; the
      notifications of every other recipient stay exactly as they were. */
  function ReadAll(st: State, e: Email): (r: Reply<()>)
    ensures r.result == Ok(())
    ensures |r.post.notices| == |st.notices|
    ensures forall j :: 0 <= j < |st.notices| && st.notices[j].toEmail == e ==>
              r.post.notices[j] == st.notices[j].(read := true)
    ensures forall j :: 0 <= j < |st.notices| && st.notices[j].toEmail != e ==>
              r.post.notices[j] == st.notices[j]
    ensures r.post.users == st.users && r.post.tasks == st.tasks
    ensures r.post.submissions == st.submissions && r.post.withdrawals == st.withdrawals
  {
    Reply(Ok(()), st.(notices := UpdateMany(st.notices, NoticeTo(e), SetRead)))
  }

  lemma ReadAllIdempotent(st: State, e: Email)
    ensures ReadAll(ReadAll(st, e).post, e) == ReadAll(st, e)
  {
    var once := ReadAll(st, e).post;
    var twice := ReadAll(once, e).post;
    assert twice.notices == once.notices;
  }

  /** After marking all read, the recipient's listing holds no unread
      notification, and it lists as many as before. */
  lemma ReadAllEmptiesListing(st: State, e: Email)
    ensures forall n :: n in ListFor(ReadAll(st, e).post, e) ==> n.read
    ensures |ListFor(ReadAll(st, e).post, e)| == |ListFor(st, e)|
  {
    var post := ReadAll(st, e).post;
    forall n | n in ListFor(post, e) ensures n.read {
      var j :| 0 <= j < |post.notices| && post.notices[j] == n;
      assert st.notices[j].toEmail == e;
    }
    assert Count(post.notices, NoticeTo(e)) == Count(st.notices, NoticeTo(e)) by {
      SameMatches(st.notices, post.notices, e);
    }
  }

  /** Setting `read` keeps every notification's recipient, so a recipient's
      count is the same before and after. */
  lemma {:induction false} SameMatches(s: seq<Notice>, t: seq<Notice>, e: Email)
    requires |s| == |t|
    requires forall j :: 0 <= j < |s| ==> t[j].toEmail == s[j].toEmail
    ensures Count(t, NoticeTo(e)) == Count(s, NoticeTo(e))
    decreases |s|
  {
    if |s| > 0 {
      FilterCons(s, NoticeTo(e));
      FilterCons(t, NoticeTo(e));
      assert Count(s, NoticeTo(e)) == (if s[0].toEmail == e then 1 else 0) + Count(s[1..], NoticeTo(e));
      assert Count(t, NoticeTo(e)) == (if t[0].toEmail == e then 1 else 0) + Count(t[1..], NoticeTo(e));
      SameMatches(s[1..], t[1..], e);
    }
  }
}

=== FILE: platform.dfy ===
/** The back end as one state machine: every route handler that writes to
    the store is one kind of step, and the lemmas here hold across all of
    them. Coins are not conserved (server/routes/submissions.js and
    server/routes/tasks.js both hand back a rejected slot), but every change
    of the platform's coin total is accounted for by a flow named below. */
module Platform {
  import opened Collection
  import opened Store
  import Tasks
  import Submissions
  import Withdrawals
  import Users
  import Auth
  import Notifications

  /** One request to a writing route, with the ids and clock readings the
      handler would generate. */
  datatype Op =
    | CreateTask(task: Tasks.NewTask, id: Id, now: Time)
    | UpdateTask(id: Id, title: string, detail: string, info: string)
    | DeleteTask(id: Id)
    | Submit(sub: Submissions.NewSubmission, id: Id, noticeId: Id, now: Time)
    | ApproveSubmission(id: Id, noticeId: Id, now: Time)
    | RejectSubmission(id: Id, noticeId: Id, now: Time)
    | RequestWithdrawal(withdrawal: Withdrawals.NewWithdrawal, id: Id, now: Time)
    | ApproveWithdrawal(id: Id, noticeId: Id, now: Time)
    | UpdateCoins(email: Email, coins: int, operation: string)
    | UpdateRole(id: Id, role: string)
    | DeleteUser(id: Id)
    | Register(email: Email, passwordHash: string, role: string, id: Id)
    | GoogleSignIn(email: Email, role: string, id: Id)
    | MarkRead(id: Id)
    | ReadAll(email: Email)

  /** The store after one request. */
  function Step(st: State, op: Op): State
  {
    match op
    case CreateTask(req, id, now) => Tasks.Create(st, req, id, now).post
    case UpdateTask(id, title, detail, info) => Tasks.Update(st, id, title, detail, info).post
    case DeleteTask(id) => Tasks.Delete(st, id).post
    case Submit(req, id, n, now) => Submissions.Create(st, req, id, n, now).post
    case ApproveSubmission(id, n, now) => Submissions.Approve(st, id, n, now).post
    case RejectSubmission(id, n, now) => Submissions.Reject(st, id, n, now).post
    case RequestWithdrawal(req, id, now) => Withdrawals.Request(st, req, id, now).post
    case ApproveWithdrawal(id, n, now) => Withdrawals.Approve(st, id, n, now).post
    case UpdateCoins(e, coins, operation) => Users.UpdateCoins(st, e, coins, operation).post
    case UpdateRole(id, role) => Users.UpdateRole(st, id, role).post
    case DeleteUser(id) => Users.Delete(st, id).post
    case Register(e, h, role, id) => Auth.Register(st, e, h, role, id).post
    case GoogleSignIn(e, role, id) => Auth.GoogleSignIn(st, e, role, id).post
    case MarkRead(id) => Notifications.MarkRead(st, id).post
    case ReadAll(e) => Notifications.ReadAll(st, e).post
  }

  // One request at a time, each as the handler it dispatches to.

  lemma StepCreateTask(st: State, req: Tasks.NewTask, id: Id, now: Time)
    ensures Step(st, CreateTask(req, id, now)) == Tasks.Create(st, req, id, now).post
  {
  }

  lemma StepDeleteTask(st: State, id: Id)
    ensures Step(st, DeleteTask(id)) == Tasks.Delete(st, id).post
  {
  }

  lemma StepSubmit(st: State, req: Submissions.NewSubmission, id: Id, n: Id, now: Time)
    ensures Step(st, Submit(req, id, n, now)) == Submissions.Create(st, req, id, n, now).post
  {
  }

  lemma StepReject(st: State, id: Id, n: Id, now: Time)
    ensures Step(st, RejectSubmission(id, n, now)) == Submissions.Reject(st, id, n, now).post
  {
  }

  /** The store after a sequence of requests, applied in order. */
  function Run(st: State, ops: seq<Op>): State
    decreases |ops|
  {
    if |ops| == 0 then st else Run(Step(st, ops[0]), ops[1..])
  }

  lemma RunCons(st: State, op: Op, rest: seq<Op>)
    ensures Run(st, [op] + rest) == Run(Step(st, op), rest)
  {
    assert ([op] + rest)[1..] == rest;
  }

  /** The coins a request creates (positive) or destroys (negative), read off
      the business rules rather than the handlers: task funding and cash-out
      requests take coins out; refunds, approvals, sign-ups and the admin's
      "add" put coins in; deleting an account takes its balance with it. */
  function Flow(st: State, op: Op): int
  {
    match op
    case CreateTask(req, _, _) =>
      var cost := req.quantity * req.pay;
      if CoinsOf(st.users, req.buyerEmail).Some? && CoinsOf(st.users, req.buyerEmail).value >= cost
      then -cost else 0
    case DeleteTask(id) =>
      (match FindTask(st.tasks, id)
       case None => 0
       case Some(t) =>
         var refund := (t.quantity - t.currentSubmissions) * t.pay;
         if refund > 0 && CoinsOf(st.users, t.buyerEmail).Some? then refund else 0)
    case ApproveSubmission(id, _, _) =>
      (match FindSubmission(st.submissions, id)
       case None => 0
       case Some(s) => if CoinsOf(st.users, s.workerEmail).Some? then s.pay else 0)
    case RejectSubmission(id, _, _) =>
      (match FindSubmission(st.submissions, id)
       case None => 0
       case Some(s) => if CoinsOf(st.users, s.buyerEmail).Some? then s.pay else 0)
    case RequestWithdrawal(req, _, _) =>
      if CoinsOf(st.users, req.workerEmail).Some? && CoinsOf(st.users, req.workerEmail).value >= req.coin &&
         req.coin >= Withdrawals.MinimumCoins
      then -req.coin else 0
    case UpdateCoins(e, coins, operation) =>
      if CoinsOf(st.users, e).None? then 0
      else if operation == Users.AddOperation then coins else -coins
    case DeleteUser(id) =>
      (match Users.FindUserById(st.users, id)
       case None => 0
       case Some(u) => -u.coins)
    case Register(e, _, role, _) => if FindUser(st.users, e).None? then Auth.StartingCoins(role) else 0
    case GoogleSignIn(e, role, _) => if FindUser(st.users, e).None? then Auth.StartingCoins(role) else 0
    case _ => 0
  }

  /** The ledger balances: whatever the request, the platform's coin total
      moves by exactly its flow. */
  lemma StepMovesTotalByFlow(st: State, op: Op)
    ensures TotalCoins(Step(st, op).users) == TotalCoins(st.users) + Flow(st, op)
  {
    hide *;
    match op
    case CreateTask(req, id, now) => CreateTaskFlow(st, req, id, now);
    case DeleteTask(id) => DeleteTaskFlow(st, id);
    case ApproveSubmission(id, n, now) => ApproveFlow(st, id, n, now);
    case RejectSubmission(id, n, now) => RejectFlow(st, id, n, now);
    case RequestWithdrawal(req, id, now) => RequestFlow(st, req, id, now);
    case UpdateCoins(e, coins, operation) => UpdateCoinsFlow(st, e, coins, operation);
    case UpdateRole(id, role) => UpdateRoleFlow(st, id, role);
    case DeleteUser(id) => DeleteUserFlow(st, id);
    case Register(e, h, role, id) => SignUpFlow(st, User(id, e, h, role, Auth.StartingCoins(role)));
    case GoogleSignIn(e, role, id) => SignUpFlow(st, User(id, e, "", role, Auth.StartingCoins(role)));
    case UpdateTask(_, _, _, _) => QuietFlow(st, op);
    case Submit(_, _, _, _) => QuietFlow(st, op);
    case ApproveWithdrawal(_, _, _) => QuietFlow(st, op);
    case MarkRead(_) => QuietFlow(st, op);
    case ReadAll(_) => QuietFlow(st, op);
  }

  /** The routes that never touch a balance. */
  lemma QuietFlow(st: State, op: Op)
    requires op.UpdateTask? || op.Submit? || op.ApproveWithdrawal? || op.MarkRead? || op.ReadAll?
    ensures TotalCoins(Step(st, op).users) == TotalCoins(st.users) + Flow(st, op)
  {
    assert Step(st, op).users == st.users;
  }

  lemma CreateTaskFlow(st: State, req: Tasks.NewTask, id: Id, now: Time)
    ensures var op := CreateTask(req, id, now);
      TotalCoins(Step(st, op).users) == TotalCoins(st.users) + Flow(st, op)
  {
    if Tasks.Create(st, req, id, now).result.Ok? {
      Tasks.CreateDebits(st, req, id, now);
    }
  }

  lemma DeleteTaskFlow(st: State, id: Id)
    ensures var op := DeleteTask(id);
      TotalCoins(Step(st, op).users) == TotalCoins(st.users) + Flow(st, op)
  {
    if FindTask(st.tasks, id).Some? {
      Tasks.DeleteRefunds(st, id);
    }
  }

  lemma ApproveFlow(st: State, id: Id, n: Id, now: Time)
    ensures var op := ApproveSubmission(id, n, now);
      TotalCoins(Step(st, op).users) == TotalCoins(st.users) + Flow(st, op)
  {
  }

  lemma RejectFlow(st: State, id: Id, n: Id, now: Time)
    ensures var op := RejectSubmission(id, n, now);
      TotalCoins(Step(st, op).users) == TotalCoins(st.users) + Flow(st, op)
  {
    if FindSubmission(st.submissions, id).Some? {
      Submissions.RejectApplies(st, id, n, now);
    }
  }

  lemma RequestFlow(st: State, req: Withdrawals.NewWithdrawal, id: Id, now: Time)
    ensures var op := RequestWithdrawal(req, id, now);
      TotalCoins(Step(st, op).users) == TotalCoins(st.users) + Flow(st, op)
  {
    if Withdrawals.Request(st, req, id, now).result.Ok? {
      Withdrawals.RequestDebits(st, req, id, now);
    }
  }

  lemma UpdateCoinsFlow(st: State, e: Email, coins: int, operation: string)
    ensures var op := UpdateCoins(e, coins, operation);
      TotalCoins(Step(st, op).users) == TotalCoins(st.users) + Flow(st, op)
  {
  }

  lemma UpdateRoleFlow(st: State, id: Id, role: string)
    ensures var op := UpdateRole(id, role);
      TotalCoins(Step(st, op).users) == TotalCoins(st.users) + Flow(st, op)
  {
    Users.UpdateRoleKeepsBalances(st, id, role);
  }

  lemma DeleteUserFlow(st: State, id: Id)
    ensures var op := DeleteUser(id);
      TotalCoins(Step(st, op).users) == TotalCoins(st.users) + Flow(st, op)
  {
    match FindIndex(st.users, UserById(id)) {
      case None =>
      case Some(k) => SumRemove(st.users, k, Coins);
    }
  }

  /** Registration and a first Google sign-in both add the new account's
      starting balance; signing in with a known email adds nothing. */
  lemma SignUpFlow(st: State, u: User)
    ensures var op := Register(u.email, u.passwordHash, u.role, u.id);
      TotalCoins(Step(st, op).users) == TotalCoins(st.users) + Flow(st, op)
    ensures var op := GoogleSignIn(u.email, u.role, u.id);
      TotalCoins(Step(st, op).users) == TotalCoins(st.users) + Flow(st, op)
  {
    if FindUser(st.users, u.email).None? {
      SumAppend(st.users, [u.(coins := Auth.StartingCoins(u.role))], Coins);
      SumAppend(st.users, [u.(passwordHash := "", coins := Auth.StartingCoins(u.role))], Coins);
    }
  }

  /** The sum of the flows along a run. */
  function RunFlow(st: State, ops: seq<Op>): int
    decreases |ops|
  {
    if |ops| == 0 then 0 else Flow(st, ops[0]) + RunFlow(Step(st, ops[0]), ops[1..])
  }

  lemma {:induction false} RunMovesTotalByFlow(st: State, ops: seq<Op>)
    ensures TotalCoins(Run(st, ops).users) == TotalCoins(st.users) + RunFlow(st, ops)
    decreases |ops|
  {
    if |ops| > 0 {
      StepMovesTotalByFlow(st, ops[0]);
      RunMovesTotalByFlow(Step(st, ops[0]), ops[1..]);
    }
  }

  // ---------------------------------------------------------------------
  // Slot counters never exceed the slots paid for.

  /** A task has no more slots taken than it was funded for (none, when its
      quantity is zero or negative). */
  predicate Funded(t: Task)
  {
    t.currentSubmissions <= if t.quantity < 0 then 0 else t.quantity
  }

  ghost predicate AllFunded(st: State)
  {
    forall t :: t in st.tasks ==> Funded(t)
  }

  /** The slot-counter update of submit and reject, index by index. */
  lemma ShiftSlotsAt(tasks: seq<Task>, id: Id, delta: int)
    ensures ShiftSlots(tasks, id, delta) == UpdateOne(tasks, TaskById(id), AddSlots(delta))
  {
  }

  lemma SubmitKeepsFunded(st: State, req: Submissions.NewSubmission, id: Id, n: Id, now: Time)
    requires AllFunded(st)
    ensures AllFunded(Submissions.Create(st, req, id, n, now).post)
  {
    var r := Submissions.Create(st, req, id, n, now);
    if r.result.Ok? {
      var k := FindIndex(st.tasks, TaskById(req.taskId)).value;
      ShiftSlotsAt(st.tasks, req.taskId, 1);
      assert st.tasks[k].currentSubmissions < st.tasks[k].quantity;
      forall t | t in r.post.tasks ensures Funded(t) {
        var j :| 0 <= j < |r.post.tasks| && r.post.tasks[j] == t;
        if j != k {
          assert t == st.tasks[j];
        }
      }
    }
  }

  lemma RejectKeepsFunded(st: State, id: Id, n: Id, now: Time)
    requires AllFunded(st)
    ensures AllFunded(Submissions.Reject(st, id, n, now).post)
  {
    if FindSubmission(st.submissions, id).Some? {
      var s := FindSubmission(st.submissions, id).value;
      var post := Submissions.Reject(st, id, n, now).post;
      Submissions.RejectApplies(st, id, n, now);
      ShiftSlotsAt(st.tasks, s.taskId, -1);
      forall t | t in post.tasks ensures Funded(t) {
        var j :| 0 <= j < |post.tasks| && post.tasks[j] == t;
        assert Funded(st.tasks[j]);
      }
    }
  }

  lemma TaskRoutesKeepFunded(st: State, op: Op)
    requires op.CreateTask? || op.UpdateTask? || op.DeleteTask?
    requires AllFunded(st)
    ensures AllFunded(Step(st, op))
  {
    var post := Step(st, op);
    match op
    case CreateTask(req, id, now) =>
    case UpdateTask(id, title, detail, info) =>
      forall t | t in post.tasks ensures Funded(t) {
        var j :| 0 <= j < |post.tasks| && post.tasks[j] == t;
        assert Tasks.SameTerms(t, st.tasks[j]);
      }
    case DeleteTask(id) =>
      forall t | t in post.tasks ensures Funded(t) {
        if FindTask(st.tasks, id).Some? {
          assert t in multiset(post.tasks);
        }
      }
  }

  /** No request ever lets a task's slot counter pass what was paid for. */
  lemma StepKeepsFunded(st: State, op: Op)
    requires AllFunded(st)
    ensures AllFunded(Step(st, op))
  {
    match op
    case CreateTask(_, _, _) => TaskRoutesKeepFunded(st, op);
    case UpdateTask(_, _, _, _) => TaskRoutesKeepFunded(st, op);
    case DeleteTask(_) => TaskRoutesKeepFunded(st, op);
    case Submit(req, id, n, now) => SubmitKeepsFunded(st, req, id, n, now);
    case RejectSubmission(id, n, now) => RejectKeepsFunded(st, id, n, now);
    case _ =>
  }

  lemma {:induction false} RunKeepsFunded(st: State, ops: seq<Op>)
    requires AllFunded(st)
    ensures AllFunded(Run(st, ops))
    decreases |ops|
  {
    if |ops| > 0 {
      StepKeepsFunded(st, ops[0]);
      RunKeepsFunded(Step(st, ops[0]), ops[1..]);
    }
  }

  // ---------------------------------------------------------------------
  // One account per email.

  ghost predicate EmailsUnique(st: State)
  {
    Unique(st.users, Auth.UserEmail)
  }

  lemma SameEmailsKeepUnique(s: seq<User>, t: seq<User>)
    requires |s| == |t|
    requires forall i :: 0 <= i < |s| ==> t[i].email == s[i].email
    requires Unique(s, Auth.UserEmail)
    ensures Unique(t, Auth.UserEmail)
  {
    forall i, j | 0 <= i < j < |t| ensures Auth.UserEmail(t[i]) != Auth.UserEmail(t[j]) {
      assert Auth.UserEmail(s[i]) != Auth.UserEmail(s[j]);
    }
  }

  lemma AppendNewEmailKeepsUnique(s: seq<User>, u: User)
    requires FindUser(s, u.email).None?
    requires Unique(s, Auth.UserEmail)
    ensures Unique(s + [u], Auth.UserEmail)
  {
    var t := s + [u];
    forall i, j | 0 <= i < j < |t| ensures Auth.UserEmail(t[i]) != Auth.UserEmail(t[j]) {
      if j == |s| {
        assert !UserByEmail(u.email)(s[i]);
      }
    }
  }

  lemma RemoveKeepsUnique(s: seq<User>, k: nat)
    requires k < |s|
    requires Unique(s, Auth.UserEmail)
    ensures Unique(s[..k] + s[k + 1..], Auth.UserEmail)
  {
    var t := s[..k] + s[k + 1..];
    forall i, j | 0 <= i < j < |t| ensures Auth.UserEmail(t[i]) != Auth.UserEmail(t[j]) {
      var i' := if i < k then i else i + 1;
      var j' := if j < k then j else j + 1;
      assert t[i] == s[i'] && t[j] == s[j'];
    }
  }

  /** The routes that move a balance keep every email where it was. */
  lemma CreditKeepsUnique(st: State, op: Op)
    requires op.CreateTask? || op.DeleteTask? || op.ApproveSubmission? || op.RejectSubmission? ||
             op.RequestWithdrawal? || op.UpdateCoins? || op.UpdateRole?
    requires EmailsUnique(st)
    ensures EmailsUnique(Step(st, op))
  {
    var post := Step(st, op);
    assert |post.users| == |st.users| && forall i :: 0 <= i < |st.users| ==> post.users[i].email == st.users[i].email by {
      match op
      case CreateTask(_, _, _) =>
      case DeleteTask(_) =>
      case ApproveSubmission(_, _, _) =>
      case RejectSubmission(_, _, _) =>
      case RequestWithdrawal(_, _, _) =>
      case UpdateCoins(_, _, _) =>
      case UpdateRole(_, _) =>
    }
    SameEmailsKeepUnique(st.users, post.users);
  }

  /** Every route keeps one account per email: registration and Google
      sign-in only add an email that is not there yet, and no other route
      changes an email. */
  lemma StepKeepsEmailsUnique(st: State, op: Op)
    requires EmailsUnique(st)
    ensures EmailsUnique(Step(st, op))
  {
    match op
    case CreateTask(_, _, _) => CreditKeepsUnique(st, op);
    case DeleteTask(_) => CreditKeepsUnique(st, op);
    case ApproveSubmission(_, _, _) => CreditKeepsUnique(st, op);
    case RejectSubmission(_, _, _) => CreditKeepsUnique(st, op);
    case RequestWithdrawal(_, _, _) => CreditKeepsUnique(st, op);
    case UpdateCoins(_, _, _) => CreditKeepsUnique(st, op);
    case UpdateRole(_, _) => CreditKeepsUnique(st, op);
    case DeleteUser(id) =>
      match FindIndex(st.users, UserById(id)) {
        case None =>
        case Some(k) => RemoveKeepsUnique(st.users, k);
      }
    case Register(e, h, role, id) =>
      if FindUser(st.users, e).None? {
        AppendNewEmailKeepsUnique(st.users, User(id, e, h, role, Auth.StartingCoins(role)));
      }
    case GoogleSignIn(e, role, id) =>
      if FindUser(st.users, e).None? {
        AppendNewEmailKeepsUnique(st.users, User(id, e, "", role, Auth.StartingCoins(role)));
      }
    case _ =>
  }
}

=== FILE: scenarios.dfy ===
/** Worked examples of the ledger rules on a small store: a five-slot task at
    10 coins a slot taken through approval, rejection and deletion, and two
    withdrawal requests on either side of the balance check. */
module Scenarios {
  import opened Collection
  import opened Store
  import Tasks
  import Submissions
  import Withdrawals

  const Buyer: Email := "buyer@example.com"
  const Worker: Email := "worker@example.com"
  const Second: Email := "second@example.com"

  function Accounts(buyer: int, worker: int): seq<User>
  {
    [User(1, Buyer, "h", BuyerRole, buyer),
     User(2, Worker, "h", WorkerRole, worker),
     User(3, Second, "h", WorkerRole, 10)]
  }

  const FiveSlots: Tasks.NewTask := Tasks.NewTask("t", "d", "i", 5, 10, Buyer)

  function Job(taken: int): Task { Task(7, "t", "d", "i", 5, 10, Buyer, taken, 0) }

  function Work(id: Id, worker: Email, status: Status, now: Time): Submission
  {
    Submission(id, 7, worker, Buyer, 10, status, now)
  }

  function ToBuyer(id: Id, now: Time): Notice
  {
    Notice(id, Buyer, WorkSubmitted, Submissions.DashboardRoute, now, false)
  }

  const Paid: Notice := Notice(31, Worker, SubmissionApproved(10), Submissions.MySubmissionsRoute, 2, false)
  const Turned: Notice := Notice(33, Second, SubmissionRejected, Submissions.MySubmissionsRoute, 4, false)

  lemma CreditBuyer(b: int, w: int, delta: int)
    ensures Credit(Accounts(b, w), Buyer, delta) == Accounts(b + delta, w)
  {
    assert FindIndex(Accounts(b, w), UserByEmail(Buyer)) == Some(0);
  }

  lemma CreditWorker(b: int, w: int, delta: int)
    ensures Credit(Accounts(b, w), Worker, delta) == Accounts(b, w + delta)
  {
    assert FindIndex(Accounts(b, w), UserByEmail(Worker)) == Some(1);
  }

  lemma ShiftJob(taken: int, delta: int)
    ensures ShiftSlots([Job(taken)], 7, delta) == [Job(taken + delta)]
  {
    assert FindIndex([Job(taken)], TaskById(7)) == Some(0);
  }

  /** Creating a task of 5 slots at 10 coins costs 50: the buyer goes from 100
      to 50 and the task starts with no slot taken. */
  lemma ScenarioCreate()
    ensures Tasks.Create(State(Accounts(100, 10), [], [], [], []), FiveSlots, 7, 0)
            == Reply(Ok(Job(0)), State(Accounts(50, 10), [Job(0)], [], [], []))
  {
    CoinsOfBuyer(100, 10);
    CreditBuyer(100, 10, -50);
  }

  lemma FindWorker(b: int, w: int)
    ensures FindUser(Accounts(b, w), Worker) == Some(User(2, Worker, "h", WorkerRole, w))
  {
    assert FindIndex(Accounts(b, w), UserByEmail(Worker)) == Some(1);
  }

  lemma CoinsOfBuyer(b: int, w: int)
    ensures CoinsOf(Accounts(b, w), Buyer) == Some(b)
  {
    assert FindIndex(Accounts(b, w), UserByEmail(Buyer)) == Some(0);
  }

  lemma FirstSubmits()
    ensures Submissions.Create(State(Accounts(50, 10), [Job(0)], [], [], []),
                               Submissions.NewSubmission(7, Worker, Buyer, 10), 20, 30, 1)
            == Reply(Ok(Work(20, Worker, Pending, 1)),
                     State(Accounts(50, 10), [Job(1)], [Work(20, Worker, Pending, 1)], [], [ToBuyer(30, 1)]))
  {
    assert FindIndex([Job(0)], TaskById(7)) == Some(0);
    ShiftJob(0, 1);
  }

  lemma FirstApproved()
    ensures Submissions.Approve(State(Accounts(50, 10), [Job(1)], [Work(20, Worker, Pending, 1)], [], [ToBuyer(30, 1)]),
                                20, 31, 2)
            == Reply(Ok(()), State(Accounts(50, 20), [Job(1)], [Work(20, Worker, Approved, 1)], [], [ToBuyer(30, 1), Paid]))
  {
    assert FindSubmission([Work(20, Worker, Pending, 1)], 20) == Some(Work(20, Worker, Pending, 1)) by {
      assert FindIndex([Work(20, Worker, Pending, 1)], SubmissionById(20)) == Some(0);
    }
    hide Credit, Accounts, Submissions.SetStatus;
    CreditWorker(50, 10, 10);
    ApproveWork();
  }

  lemma ApproveWork()
    ensures FindSubmission([Work(20, Worker, Pending, 1)], 20).Some?
    ensures Submissions.SetStatus([Work(20, Worker, Pending, 1)], 20, Approved) == [Work(20, Worker, Approved, 1)]
  {
    assert FindIndex([Work(20, Worker, Pending, 1)], SubmissionById(20)) == Some(0);
  }

  /** A worker's submission takes a slot; approving it pays the worker 10 and
      leaves the slot count at 1. */
  lemma ScenarioSubmitApprove()
    ensures var s1 := State(Accounts(50, 10), [Job(0)], [], [], []);
      var r := Submissions.Create(s1, Submissions.NewSubmission(7, Worker, Buyer, 10), 20, 30, 1);
      && r == Reply(Ok(Work(20, Worker, Pending, 1)),
                    State(Accounts(50, 10), [Job(1)], [Work(20, Worker, Pending, 1)], [], [ToBuyer(30, 1)]))
      && Submissions.Approve(r.post, 20, 31, 2)
         == Reply(Ok(()), State(Accounts(50, 20), [Job(1)], [Work(20, Worker, Approved, 1)], [], [ToBuyer(30, 1), Paid]))
  {
    hide *;
    FirstSubmits();
    FirstApproved();
  }

  lemma SecondSubmits()
    ensures var subs := [Work(20, Worker, Approved, 1)];
      Submissions.Create(State(Accounts(50, 20), [Job(1)], subs, [], [ToBuyer(30, 1), Paid]),
                         Submissions.NewSubmission(7, Second, Buyer, 10), 21, 32, 3).post
      == State(Accounts(50, 20), [Job(2)], subs + [Work(21, Second, Pending, 3)], [],
               [ToBuyer(30, 1), Paid, ToBuyer(32, 3)])
  {
    var subs := [Work(20, Worker, Approved, 1)];
    assert FindIndex(subs, Submissions.SubmissionFor(7, Second)).None? by {
      assert FindIndex(subs[1..], Submissions.SubmissionFor(7, Second)).None?;
    }
    assert FindIndex([Job(1)], TaskById(7)) == Some(0);
    ShiftJob(1, 1);
  }

  lemma SecondRejected()
    ensures var both := [Work(20, Worker, Approved, 1), Work(21, Second, Pending, 3)];
      Submissions.Reject(State(Accounts(50, 20), [Job(2)], both, [], [ToBuyer(30, 1), Paid, ToBuyer(32, 3)]),
                         21, 33, 4).post
      == State(Accounts(60, 20), [Job(1)], [Work(20, Worker, Approved, 1), Work(21, Second, Rejected, 3)], [],
               [ToBuyer(30, 1), Paid, ToBuyer(32, 3), Turned])
  {
    var both := [Work(20, Worker, Approved, 1), Work(21, Second, Pending, 3)];
    assert FindSubmission(both, 21) == Some(Work(21, Second, Pending, 3)) by {
      assert FindIndex(both[1..], SubmissionById(21)) == Some(0);
      assert FindIndex(both, SubmissionById(21)) == Some(1);
    }
    hide Credit, ShiftSlots, Accounts, Submissions.SetStatus;
    ShiftJob(2, -1);
    CreditBuyer(50, 20, 10);
    RejectWork();
  }

  lemma RejectWork()
    ensures FindSubmission([Work(20, Worker, Approved, 1), Work(21, Second, Pending, 3)], 21).Some?
    ensures var both := [Work(20, Worker, Approved, 1), Work(21, Second, Pending, 3)];
      Submissions.SetStatus(both, 21, Rejected) == [Work(20, Worker, Approved, 1), Work(21, Second, Rejected, 3)]
  {
    var both := [Work(20, Worker, Approved, 1), Work(21, Second, Pending, 3)];
    assert FindIndex(both[1..], SubmissionById(21)) == Some(0);
    assert FindIndex(both, SubmissionById(21)) == Some(1);
  }

  /** A second worker's submission takes a second slot; rejecting it gives the
      slot back and refunds the buyer 10. */
  lemma ScenarioSubmitReject()
    ensures var subs := [Work(20, Worker, Approved, 1)];
      var s2 := State(Accounts(50, 20), [Job(1)], subs, [], [ToBuyer(30, 1), Paid]);
      var r := Submissions.Create(s2, Submissions.NewSubmission(7, Second, Buyer, 10), 21, 32, 3);
      && r.post == State(Accounts(50, 20), [Job(2)], subs + [Work(21, Second, Pending, 3)], [],
                         [ToBuyer(30, 1), Paid, ToBuyer(32, 3)])
      && Submissions.Reject(r.post, 21, 33, 4).post
         == State(Accounts(60, 20), [Job(1)], subs + [Work(21, Second, Rejected, 3)], [],
                  [ToBuyer(30, 1), Paid, ToBuyer(32, 3), Turned])
  {
    var subs := [Work(20, Worker, Approved, 1)];
    assert subs + [Work(21, Second, Pending, 3)] == [Work(20, Worker, Approved, 1), Work(21, Second, Pending, 3)];
    assert subs + [Work(21, Second, Rejected, 3)] == [Work(20, Worker, Approved, 1), Work(21, Second, Rejected, 3)];
    hide *;
    SecondSubmits();
    SecondRejected();
  }

  /** Deleting the task with 1 of 5 slots taken refunds (5 − 1) × 10 = 40. */
  lemma ScenarioDelete()
    ensures var subs := [Work(20, Worker, Approved, 1), Work(21, Second, Rejected, 3)];
      var r := Tasks.Delete(State(Accounts(60, 20), [Job(1)], subs, [], []), 7);
      && r.result == Ok(40)
      && CoinsOf(r.post.users, Buyer) == Some(100)
      && r.post.tasks == [] && r.post.submissions == []
  {
    var subs := [Work(20, Worker, Approved, 1), Work(21, Second, Rejected, 3)];
    assert FindIndex([Job(1)], TaskById(7)) == Some(0);
    assert FindIndex(Accounts(60, 20), UserByEmail(Buyer)) == Some(0);
    assert Filter(subs[1..], Tasks.SubmissionNotOf(7)) == [];
  }

  function Cashout(coin: int): Withdrawals.NewWithdrawal
  {
    Withdrawals.NewWithdrawal(Worker, coin, coin / 20, "bkash", "017")
  }

  /** A worker holding 150 coins cannot cash out 200: Insufficient, nothing changes. */
  lemma ScenarioWithdrawShort()
    ensures var st := State(Accounts(0, 150), [], [], [], []);
      Withdrawals.Request(st, Cashout(200), 9, 5) == Reply(Err(Insufficient), st)
  {
    hide Credit, FindUser, Accounts;
    FindWorker(0, 150);
  }

  /** A worker holding 250 coins cashes out 200: 50 remain and a pending
      request for 200 coins, worth 10 dollars, is stored. */
  lemma ScenarioWithdraw()
    ensures var st := State(Accounts(0, 250), [], [], [], []);
      var r := Withdrawals.Request(st, Cashout(200), 9, 5);
      && r.result == Ok(Withdrawal(9, Worker, 200, 10, "bkash", "017", Pending, 5, None))
      && r.post.users == Accounts(0, 50)
      && r.post.withdrawals == [Withdrawal(9, Worker, 200, 10, "bkash", "017", Pending, 5, None)]
  {
    hide Credit, FindUser, Accounts;
    FindWorker(0, 250);
    CreditWorker(0, 250, -200);
  }
}

=== FILE: stats.dfy ===
/** The aggregate queries of server/routes/stats.js, as counts and sums over
    the store, and how the ledger handlers move them. */
module Stats {
  import opened Collection
  import opened Store
  import Submissions
  import Withdrawals
  import Auth

  datatype AdminStats = AdminStats(totalWorkers: nat, totalBuyers: nat, totalTasks: nat, totalCoins: int, totalPayments: int)
  datatype WorkerStats = WorkerStats(totalSubmissions: nat, pendingSubmissions: nat, approvedSubmissions: nat, totalEarnings: int)
  datatype BuyerStats = BuyerStats(totalTasks: nat, pendingReviews: nat, totalPayment: int)
  datatype PublicStats = PublicStats(totalUsers: nat, totalTasks: nat, completedTasks: nat)

  function HasRole(role: string): User -> bool { (u: User) => u.role == role }
  function ApprovedWithdrawal(w: Withdrawal): bool { w.status == Approved }
  function CashAmount(w: Withdrawal): int { w.amount }
  function SubmissionPay(s: Submission): int { s.pay }
  function IsApproved(s: Submission): bool { s.status == Approved }

  function ByWorker(e: Email): Submission -> bool { (s: Submission) => s.workerEmail == e }
  function ByWorkerWith(e: Email, status: Status): Submission -> bool
  {
    (s: Submission) => s.workerEmail == e && s.status == status
  }
  function ByBuyerWith(e: Email, status: Status): Submission -> bool
  {
    (s: Submission) => s.buyerEmail == e && s.status == status
  }
  function TaskOfBuyer(e: Email): Task -> bool { (t: Task) => t.buyerEmail == e }

  /** GET /stats/admin. */
  function Admin(st: State): (r: AdminStats)
    ensures r.totalWorkers + r.totalBuyers <= |st.users|
    ensures r.totalTasks == |st.tasks|
    ensures r.totalCoins == TotalCoins(st.users)
    ensures st.users == [] ==> r.totalCoins == 0 && r.totalWorkers == 0 && r.totalBuyers == 0
    ensures st.withdrawals == [] ==> r.totalPayments == 0
  {
    CountDisjoint(st.users, HasRole(WorkerRole), HasRole(BuyerRole), (u: User) => true);
    FilterAllUsers(st.users);
    AdminStats(
      Count(st.users, HasRole(WorkerRole)),
      Count(st.users, HasRole(BuyerRole)),
      |st.tasks|,
      TotalCoins(st.users),
      SumWhere(st.withdrawals, ApprovedWithdrawal, CashAmount))
  }

  lemma FilterAllUsers(s: seq<User>)
    ensures Count(s, (u: User) => true) == |s|
  {
    FilterKeepsAll(s, (u: User) => true);
  }

  /** GET /stats/worker/:email. */
  function Worker(st: State, e: Email): (r: WorkerStats)
    ensures r.pendingSubmissions + r.approvedSubmissions <= r.totalSubmissions
    ensures r.totalSubmissions <= |st.submissions|
  {
    CountDisjoint(st.submissions, ByWorkerWith(e, Pending), ByWorkerWith(e, Approved), ByWorker(e));
    WorkerStats(
      Count(st.submissions, ByWorker(e)),
      Count(st.submissions, ByWorkerWith(e, Pending)),
      Count(st.submissions, ByWorkerWith(e, Approved)),
      SumWhere(st.submissions, ByWorkerWith(e, Approved), SubmissionPay))
  }

  /** GET /stats/buyer/:email. */
  function Buyer(st: State, e: Email): (r: BuyerStats)
    ensures r.totalTasks <= |st.tasks|
    ensures r.pendingReviews <= |st.submissions|
    ensures st.submissions == [] ==> r.totalPayment == 0 && r.pendingReviews == 0
  {
    BuyerStats(
      Count(st.tasks, TaskOfBuyer(e)),
      Count(st.submissions, ByBuyerWith(e, Pending)),
      SumWhere(st.submissions, ByBuyerWith(e, Approved), SubmissionPay))
  }

  /** GET /stats/public. */
  function Public(st: State): (r: PublicStats)
    ensures r.totalUsers == |st.users| && r.totalTasks == |st.tasks|
    ensures r.completedTasks <= |st.submissions|
  {
    PublicStats(|st.users|, |st.tasks|, Count(st.submissions, IsApproved))
  }

  /** Approval and the worker's earnings: approving a submission that was not
      yet approved adds its pay to the worker's `totalEarnings` and one to the
      approved count; approving one already approved changes neither, although
      the handler pays the worker again. */
  lemma ApproveMovesEarnings(st: State, id: Id, n: Id, now: Time)
    requires FindSubmission(st.submissions, id).Some?
    ensures var s := FindSubmission(st.submissions, id).value;
      var before := Worker(st, s.workerEmail);
      var after := Worker(Submissions.Approve(st, id, n, now).post, s.workerEmail);
      && after.totalEarnings == before.totalEarnings + (if s.status == Approved then 0 else s.pay)
      && after.approvedSubmissions == before.approvedSubmissions + (if s.status == Approved then 0 else 1)
      && after.totalSubmissions == before.totalSubmissions
  {
    var k := FindIndex(st.submissions, SubmissionById(id)).value;
    var s := st.submissions[k];
    var x := s.(status := Approved);
    var post := Submissions.Approve(st, id, n, now).post;
    assert post.submissions == st.submissions[k := x];
    SumWhereUpdate(st.submissions, k, x, ByWorkerWith(s.workerEmail, Approved), SubmissionPay);
    CountUpdate(st.submissions, k, x, ByWorkerWith(s.workerEmail, Approved));
    CountUpdate(st.submissions, k, x, ByWorker(s.workerEmail));
  }

  /** The double payout shows in the numbers: after approving the same pending
      submission twice, the worker's balance has risen by twice the pay while
      the worker's reported earnings have risen by the pay once. */
  lemma DoubleApproveOutrunsEarnings(st: State, id: Id, n1: Id, n2: Id, t1: Time, t2: Time)
    requires FindSubmission(st.submissions, id).Some?
    requires FindSubmission(st.submissions, id).value.status == Pending
    requires CoinsOf(st.users, FindSubmission(st.submissions, id).value.workerEmail).Some?
    ensures var s := FindSubmission(st.submissions, id).value;
      var twice := Submissions.Approve(Submissions.Approve(st, id, n1, t1).post, id, n2, t2).post;
      && CoinsOf(twice.users, s.workerEmail) == Some(CoinsOf(st.users, s.workerEmail).value + 2 * s.pay)
      && Worker(twice, s.workerEmail).totalEarnings == Worker(st, s.workerEmail).totalEarnings + s.pay
  {
    hide Submissions.Approve;
    var s := FindSubmission(st.submissions, id).value;
    var once := Submissions.Approve(st, id, n1, t1).post;
    Submissions.ApproveTwicePaysTwice(st, id, n1, n2, t1, t2);
    ApproveMovesEarnings(st, id, n1, t1);
    assert FindSubmission(once.submissions, id) == Some(s.(status := Approved));
    ApproveMovesEarnings(once, id, n2, t2);
  }

  /** Approving a pending withdrawal adds its cash amount to `totalPayments`;
      approving it again adds nothing more. */
  lemma ApproveMovesPayments(st: State, id: Id, n: Id, now: Time)
    requires Withdrawals.FindWithdrawal(st.withdrawals, id).Some?
    ensures var w := Withdrawals.FindWithdrawal(st.withdrawals, id).value;
      Admin(Withdrawals.Approve(st, id, n, now).post).totalPayments
      == Admin(st).totalPayments + (if w.status == Approved then 0 else w.amount)
  {
    var k := FindIndex(st.withdrawals, WithdrawalById(id)).value;
    var w := st.withdrawals[k];
    var x := w.(status := Approved, approvedAt := Some(now));
    assert Withdrawals.Approve(st, id, n, now).post.withdrawals == st.withdrawals[k := x];
    SumWhereUpdate(st.withdrawals, k, x, ApprovedWithdrawal, CashAmount);
  }

  /** Approve and reject rewrite exactly the submission the id finds first. */
  lemma ApproveRewrites(st: State, id: Id, n: Id, now: Time)
    requires FindSubmission(st.submissions, id).Some?
    ensures FindIndex(st.submissions, SubmissionById(id)).Some?
    ensures var k := FindIndex(st.submissions, SubmissionById(id)).value;
      && FindSubmission(st.submissions, id) == Some(st.submissions[k])
      && Submissions.Approve(st, id, n, now).post.submissions
         == st.submissions[k := st.submissions[k].(status := Approved)]
  {
  }

  lemma RejectRewrites(st: State, id: Id, n: Id, now: Time)
    requires FindSubmission(st.submissions, id).Some?
    ensures FindIndex(st.submissions, SubmissionById(id)).Some?
    ensures var k := FindIndex(st.submissions, SubmissionById(id)).value;
      && FindSubmission(st.submissions, id) == Some(st.submissions[k])
      && Submissions.Reject(st, id, n, now).post.submissions
         == st.submissions[k := st.submissions[k].(status := Rejected)]
  {
  }

  /** Approval and the buyer's figures: approving a submission not yet approved
      adds its pay to its buyer's `totalPayment`; one that was pending also
      leaves `pendingReviews`; the task count stays. */
  lemma ApproveMovesBuyerPayment(st: State, id: Id, n: Id, now: Time)
    requires FindSubmission(st.submissions, id).Some?
    ensures var s := FindSubmission(st.submissions, id).value;
      var before := Buyer(st, s.buyerEmail);
      var after := Buyer(Submissions.Approve(st, id, n, now).post, s.buyerEmail);
      && after.totalPayment == before.totalPayment + (if s.status == Approved then 0 else s.pay)
      && after.pendingReviews == before.pendingReviews - (if s.status == Pending then 1 else 0)
      && after.totalTasks == before.totalTasks
  {
    var k := FindIndex(st.submissions, SubmissionById(id)).value;
    var s := st.submissions[k];
    var x := s.(status := Approved);
    hide *;
    ApproveRewrites(st, id, n, now);
    SumWhereUpdate(st.submissions, k, x, ByBuyerWith(s.buyerEmail, Approved), SubmissionPay);
    CountUpdate(st.submissions, k, x, ByBuyerWith(s.buyerEmail, Pending));
  }

  /** Approving a submission not yet approved adds one to the public
      `completedTasks`; approving it again adds nothing. */
  lemma ApproveMovesCompleted(st: State, id: Id, n: Id, now: Time)
    requires FindSubmission(st.submissions, id).Some?
    ensures var s := FindSubmission(st.submissions, id).value;
      Public(Submissions.Approve(st, id, n, now).post).completedTasks
      == Public(st).completedTasks + (if s.status == Approved then 0 else 1)
  {
    var k := FindIndex(st.submissions, SubmissionById(id)).value;
    var x := st.submissions[k].(status := Approved);
    hide *;
    ApproveRewrites(st, id, n, now);
    CountUpdate(st.submissions, k, x, IsApproved);
  }

  /** Rejecting a pending submission takes it out of its buyer's
      `pendingReviews`; rejecting an approved one takes its pay out of
      `totalPayment`, although the buyer is refunded. */
  lemma RejectMovesBuyerStats(st: State, id: Id, n: Id, now: Time)
    requires FindSubmission(st.submissions, id).Some?
    ensures var s := FindSubmission(st.submissions, id).value;
      var before := Buyer(st, s.buyerEmail);
      var after := Buyer(Submissions.Reject(st, id, n, now).post, s.buyerEmail);
      && after.totalPayment == before.totalPayment - (if s.status == Approved then s.pay else 0)
      && after.pendingReviews == before.pendingReviews - (if s.status == Pending then 1 else 0)
  {
    var k := FindIndex(st.submissions, SubmissionById(id)).value;
    var s := st.submissions[k];
    var x := s.(status := Rejected);
    hide *;
    RejectRewrites(st, id, n, now);
    SumWhereUpdate(st.submissions, k, x, ByBuyerWith(s.buyerEmail, Approved), SubmissionPay);
    CountUpdate(st.submissions, k, x, ByBuyerWith(s.buyerEmail, Pending));
  }

  /** A new account shows in the admin figures at once: the worker or buyer
      count of its role rises by one and the platform's coin total by its
      starting balance; the other role's count stays. */
  lemma RegisterMovesAdminStats(st: State, email: Email, passwordHash: string, role: string, id: Id)
    requires FindUser(st.users, email).None?
    ensures var before := Admin(st);
      var after := Admin(Auth.Register(st, email, passwordHash, role, id).post);
      && after.totalWorkers == before.totalWorkers + (if role == WorkerRole then 1 else 0)
      && after.totalBuyers == before.totalBuyers + (if role == BuyerRole then 1 else 0)
      && after.totalCoins == before.totalCoins + Auth.StartingCoins(role)
      && after.totalTasks == before.totalTasks
      && after.totalPayments == before.totalPayments
  {
    var u := User(id, email, passwordHash, role, Auth.StartingCoins(role));
    assert Auth.Register(st, email, passwordHash, role, id).post.users == st.users + [u];
    CountAppend(st.users, u, HasRole(WorkerRole));
    CountAppend(st.users, u, HasRole(BuyerRole));
    SumAppend(st.users, [u], Coins);
  }
}

=== FILE: store.dfy ===
/** The back end's document store: the `users`, `tasks`, `submissions`,
    `withdrawals` and `notifications` collections of server/config/db.js,
    each a sequence of documents in insertion order, and the coin ledger
    primitive every route handler uses (`$inc` on a user's `coins`). */
module Store {
  import opened Collection

  type Id = nat
  type Email = string
  type Time = int

  const WorkerRole: string := "worker"
  const BuyerRole: string := "buyer"

  /** A user document; the unique index on `email` makes the email the user's key. */
  datatype User = User(id: Id, email: Email, passwordHash: string, role: string, coins: int)

  datatype Task = Task(
    id: Id,
    title: string,
    detail: string,
    submissionInfo: string,
    quantity: int,            // task_quantity: the number of worker slots paid for
    pay: int,                 // payable_amount per slot
    buyerEmail: Email,
    currentSubmissions: int,  // slots taken; incremented on submit, decremented on reject
    createdAt: Time)

  /** The `status` strings shared by submissions and withdrawals. */
  datatype Status = Pending | Approved | Rejected

  datatype Submission = Submission(
    id: Id,
    taskId: Id,
    workerEmail: Email,
    buyerEmail: Email,        // copied from the request body, not from the task
    pay: int,                 // payable_amount, copied from the request body
    status: Status,
    submittedAt: Time)

  datatype Withdrawal = Withdrawal(
    id: Id,
    workerEmail: Email,
    coin: int,                // withdraw_coin, debited at request time
    amount: int,              // withdraw_amount, the cash value, stored as sent
    paymentSystem: string,
    accountNumber: string,
    status: Status,
    requestedAt: Time,
    approvedAt: Option<Time>)

  /** Which event a server-side notification reports (its message text is not modelled). */
  datatype NoticeKind =
    | WorkSubmitted
    | SubmissionApproved(earned: int)
    | SubmissionRejected
    | WithdrawalApproved(cash: int)

  datatype Notice = Notice(id: Id, toEmail: Email, kind: NoticeKind, actionRoute: string, time: Time, read: bool)

  datatype State = State(
    users: seq<User>,
    tasks: seq<Task>,
    submissions: seq<Submission>,
    withdrawals: seq<Withdrawal>,
    notices: seq<Notice>)

  /** Business errors the handlers answer with, plus `Internal` for a handler that
      throws (dereferencing a user that is not there) and so answers 500. */
  datatype Error =
    | NotFound
    | Insufficient
    | BelowMinimum
    | Duplicate
    | Unavailable
    | UserExists
    | InvalidCredentials
    | Internal

  datatype Result<+T> = Ok(value: T) | Err(error: Error)

  /** What one handler invocation produces: its response and the store afterwards. */
  datatype Reply<+T> = Reply(result: Result<T>, post: State)

  // Query filters, one per key the handlers look documents up by.

  function UserByEmail(e: Email): User -> bool { (u: User) => u.email == e }
  function UserById(id: Id): User -> bool { (u: User) => u.id == id }
  function TaskById(id: Id): Task -> bool { (t: Task) => t.id == id }
  function SubmissionById(id: Id): Submission -> bool { (s: Submission) => s.id == id }
  function WithdrawalById(id: Id): Withdrawal -> bool { (w: Withdrawal) => w.id == id }
  function NoticeById(id: Id): Notice -> bool { (n: Notice) => n.id == id }

  function FindUser(users: seq<User>, e: Email): Option<User>
  {
    FindOne(users, UserByEmail(e))
  }

  /** The balance of the account `e`, as `findOne({ email: e }).coins` reads it. */
  function CoinsOf(users: seq<User>, e: Email): Option<int>
  {
    match FindUser(users, e)
    case None => None
    case Some(u) => Some(u.coins)
  }

  function FindTask(tasks: seq<Task>, id: Id): Option<Task>
  {
    FindOne(tasks, TaskById(id))
  }

  function Coins(u: User): int { u.coins }

  /** The `totalCoins` aggregate: every balance summed. */
  function TotalCoins(users: seq<User>): int
  {
    Sum(users, Coins)
  }

  function AddCoins(delta: int): User -> User
  {
    (u: User) => u.(coins := u.coins + delta)
  }

  /** The account documents are the same, position by position, except perhaps
      for their balances: what a `$inc` on `coins` may change. */
  predicate OnlyCoinsChanged(before: seq<User>, after: seq<User>)
  {
    |after| == |before| &&
    forall i :: 0 <= i < |before| ==> after[i] == before[i].(coins := after[i].coins)
  }

  /** `updateOne({ email: e }, { $inc: { coins: delta } })`: moves the balance of
      account `e` by `delta`; no account, no change. Only that balance moves. */
  function Credit(users: seq<User>, e: Email, delta: int): (r: seq<User>)
    ensures OnlyCoinsChanged(users, r)
    ensures CoinsOf(users, e).None? ==> r == users
    ensures CoinsOf(users, e).Some? ==> CoinsOf(r, e) == Some(CoinsOf(users, e).value + delta)
    ensures forall e' :: e' != e ==> CoinsOf(r, e') == CoinsOf(users, e')
    ensures TotalCoins(r) == TotalCoins(users) + (if CoinsOf(users, e).Some? then delta else 0)
  {
    match FindIndex(users, UserByEmail(e))
    case None => users
    case Some(k) =>
      var r := users[k := AddCoins(delta)(users[k])];
      assert FindIndex(r, UserByEmail(e)) == Some(k) by {
        FindIndexUpdate(users, UserByEmail(e), k, r[k]);
      }
      assert forall e' :: e' != e ==> CoinsOf(r, e') == CoinsOf(users, e') by {
        forall e' | e' != e ensures CoinsOf(r, e') == CoinsOf(users, e') {
          FindIndexUpdate(users, UserByEmail(e'), k, r[k]);
        }
      }
      SumUpdate(users, k, r[k], Coins);
      r
  }

  function FindSubmission(subs: seq<Submission>, id: Id): Option<Submission>
  {
    FindOne(subs, SubmissionById(id))
  }

  function AddSlots(delta: int): Task -> Task
  {
    (t: Task) => t.(currentSubmissions := t.currentSubmissions + delta)
  }

  /** `updateOne({ _id: id }, { $inc: { current_submissions: delta } })`: moves
      the slot counter of that task by `delta`, with no bound either way; no
      task, no change. Nothing else about any task changes. */
  function ShiftSlots(tasks: seq<Task>, id: Id, delta: int): (r: seq<Task>)
    ensures |r| == |tasks|
    ensures forall i :: 0 <= i < |tasks| ==>
              r[i] == tasks[i].(currentSubmissions := r[i].currentSubmissions)
    ensures FindTask(tasks, id).None? ==> r == tasks
    ensures FindTask(tasks, id).Some? ==>
              FindTask(r, id) == Some(AddSlots(delta)(FindTask(tasks, id).value))
    ensures forall id' :: id' != id ==> FindTask(r, id') == FindTask(tasks, id')
  {
    match FindIndex(tasks, TaskById(id))
    case None => tasks
    case Some(k) =>
      var r := tasks[k := AddSlots(delta)(tasks[k])];
      FindIndexUpdate(tasks, TaskById(id), k, r[k]);
      assert forall id' :: id' != id ==> FindTask(r, id') == FindTask(tasks, id') by {
        forall id' | id' != id ensures FindTask(r, id') == FindTask(tasks, id') {
          FindIndexUpdate(tasks, TaskById(id'), k, r[k]);
        }
      }
      r
  }
}

=== FILE: submissions.dfy ===
/** The submission routes of server/routes/submissions.js: the worker's
    submission against a task slot, the buyer's approve (pays the worker) and
    reject (frees the slot and refunds the buyer), and the listings. Neither
    approve nor reject looks at the submission's current status. */
module Submissions {
  import opened Collection
  import opened Store

  /** The fields of the creation request body that the handler uses; the buyer
      and the pay come from the request, not from the task. */
  datatype NewSubmission = NewSubmission(taskId: Id, workerEmail: Email, buyerEmail: Email, pay: int)

  const DashboardRoute: string := "/dashboard"
  const MySubmissionsRoute: string := "/dashboard/my-submissions"

  function SubmittedAt(s: Submission): int { s.submittedAt }

  function SubmissionFor(taskId: Id, worker: Email): Submission -> bool
  {
    (s: Submission) => s.taskId == taskId && s.workerEmail == worker
  }

  function PendingOfBuyer(e: Email): Submission -> bool
  {
    (s: Submission) => s.buyerEmail == e && s.status == Pending
  }

  function OfTask(taskId: Id): Submission -> bool { (s: Submission) => s.taskId == taskId }
  function OfWorker(e: Email): Submission -> bool { (s: Submission) => s.workerEmail == e }

  /** Some submission, in any status, exists for this task and worker. */
  ghost predicate HasSubmitted(subs: seq<Submission>, taskId: Id, worker: Email)
  {
    exists j :: 0 <= j < |subs| && subs[j].taskId == taskId && subs[j].workerEmail == worker
  }

  /** The task exists and has a free slot by its counter. */
  ghost predicate SlotOpen(tasks: seq<Task>, taskId: Id)
  {
    FindTask(tasks, taskId).Some? &&
    FindTask(tasks, taskId).value.currentSubmissions < FindTask(tasks, taskId).value.quantity
  }

  /** GET /submissions/buyer/:email/pending: that buyer's pending submissions, newest first. */
  function PendingForBuyer(st: State, e: Email): (r: seq<Submission>)
    ensures forall j :: 0 <= j < |r| ==> r[j].buyerEmail == e && r[j].status == Pending
    ensures forall j :: 0 <= j < |st.submissions| ==>
              (st.submissions[j].buyerEmail == e && st.submissions[j].status == Pending ==> st.submissions[j] in r)
    ensures multiset(r) <= multiset(st.submissions)
    ensures SortedDesc(r, SubmittedAt)
  {
    FindSortedMembers(st.submissions, PendingOfBuyer(e), SubmittedAt);
    FindSorted(st.submissions, PendingOfBuyer(e), SubmittedAt)
  }

  /** GET /submissions/task/:taskId: the task's submissions, newest first. */
  function ForTask(st: State, taskId: Id): (r: seq<Submission>)
    ensures forall j :: 0 <= j < |r| ==> r[j].taskId == taskId
    ensures forall j :: 0 <= j < |st.submissions| && st.submissions[j].taskId == taskId ==> st.submissions[j] in r
    ensures multiset(r) <= multiset(st.submissions)
    ensures SortedDesc(r, SubmittedAt)
  {
    FindSortedMembers(st.submissions, OfTask(taskId), SubmittedAt);
    FindSorted(st.submissions, OfTask(taskId), SubmittedAt)
  }

  /** GET /submissions/worker/:email with the page already turned into a skip
      count and a limit (0 meaning no limit, as for `.limit(0)`): one page of the
      worker's submissions, newest first, and the worker's total count. */
  function ForWorker(st: State, e: Email, skip: nat, limit: nat): (r: (seq<Submission>, nat))
    ensures forall j :: 0 <= j < |r.0| ==> r.0[j].workerEmail == e
    ensures limit > 0 ==> |r.0| <= limit
    ensures SortedDesc(r.0, SubmittedAt)
    ensures r.1 == Count(st.submissions, OfWorker(e))
    ensures |r.0| > 0 ==> skip + |r.0| <= r.1
    ensures |r.0| == if skip >= r.1 then 0 else if limit == 0 || r.1 - skip <= limit then r.1 - skip else limit
    ensures multiset(r.0) <= multiset(st.submissions)
    ensures forall j :: 0 <= j < |r.0| ==> r.0[j] == FindSorted(st.submissions, OfWorker(e), SubmittedAt)[skip + j]
  {
    var all := FindSorted(st.submissions, OfWorker(e), SubmittedAt);
    PageSorted(all, skip, limit, SubmittedAt);
    PageWithin(all, skip, limit);
    FindSortedMembers(st.submissions, OfWorker(e), SubmittedAt);
    (Page(all, skip, limit), |all|)
  }

  /** POST /submissions. A submission already made by this worker for this task,
      in any status, is refused first; then a missing or full task (by its slot
      counter) is refused; otherwise a pending submission is stored, the task's
      counter goes up by one and the buyer is notified. No balance moves. */
  function Create(st: State, req: NewSubmission, id: Id, noticeId: Id, now: Time): (r: Reply<Submission>)
    ensures r.result.Err? ==> r.post == st
    ensures r.result == Err(Duplicate) <==> HasSubmitted(st.submissions, req.taskId, req.workerEmail)
    ensures r.result == Err(Unavailable) <==>
              !HasSubmitted(st.submissions, req.taskId, req.workerEmail) && !SlotOpen(st.tasks, req.taskId)
    ensures r.result.Ok? <==>
              !HasSubmitted(st.submissions, req.taskId, req.workerEmail) && SlotOpen(st.tasks, req.taskId)
    ensures r.result.Ok? ==>
              var s := r.result.value;
              var t := FindTask(st.tasks, req.taskId).value;
              && s == Submission(id, req.taskId, req.workerEmail, req.buyerEmail, req.pay, Pending, now)
              && r.post.submissions == st.submissions + [s]
              && FindTask(r.post.tasks, req.taskId) ==
                   Some(t.(currentSubmissions := t.currentSubmissions + 1))
              && (forall id' :: id' != req.taskId ==> FindTask(r.post.tasks, id') == FindTask(st.tasks, id'))
              && r.post.users == st.users
              && r.post.withdrawals == st.withdrawals
              && r.post.notices ==
                   st.notices + [Notice(noticeId, req.buyerEmail, WorkSubmitted, DashboardRoute, now, false)]
  {
    match FindOne(st.submissions, SubmissionFor(req.taskId, req.workerEmail))
    case Some(_) => Reply(Err(Duplicate), st)
    case None =>
      match FindTask(st.tasks, req.taskId)
      case None => Reply(Err(Unavailable), st)
      case Some(t) =>
        if t.currentSubmissions >= t.quantity then Reply(Err(Unavailable), st)
        else
          var s := Submission(id, req.taskId, req.workerEmail, req.buyerEmail, req.pay, Pending, now);
          var n := Notice(noticeId, req.buyerEmail, WorkSubmitted, DashboardRoute, now, false);
          Reply(Ok(s), st.(submissions := st.submissions + [s],
                           tasks := ShiftSlots(st.tasks, req.taskId, 1),
                           notices := st.notices + [n]))
  }

  /** `updateOne({ _id: id }, { $set: { status } })` on a submission that is
      there: that submission takes the new status and no other document changes. */
  function SetStatus(subs: seq<Submission>, id: Id, status: Status): (r: seq<Submission>)
    requires FindSubmission(subs, id).Some?
    ensures |r| == |subs|
    ensures FindSubmission(r, id) == Some(FindSubmission(subs, id).value.(status := status))
    ensures forall j :: 0 <= j < |subs| ==> r[j] == subs[j] || subs[j].id == id
    ensures forall j :: 0 <= j < |subs| && j != FindIndex(subs, SubmissionById(id)).value ==> r[j] == subs[j]
  {
    var k := FindIndex(subs, SubmissionById(id)).value;
    var r := subs[k := subs[k].(status := status)];
    FindIndexUpdate(subs, SubmissionById(id), k, r[k]);
    r
  }

  /** PATCH /submissions/:id/approve. Unknown id: 404 and no change. Otherwise
      the submission becomes approved, its worker is credited its pay, and the
      worker is notified; tasks are untouched. There is no status check. */
  function Approve(st: State, id: Id, noticeId: Id, now: Time): (r: Reply<()>)
    ensures |r.post.submissions| == |st.submissions|
    ensures FindIndex(st.submissions, SubmissionById(id)).Some? ==>
              forall j :: 0 <= j < |st.submissions| && j != FindIndex(st.submissions, SubmissionById(id)).value ==>
                r.post.submissions[j] == st.submissions[j]
    ensures FindSubmission(st.submissions, id).None? <==> r.result == Err(NotFound)
    ensures r.result.Err? ==> r.post == st
    ensures FindSubmission(st.submissions, id).Some? ==>
              var s := FindSubmission(st.submissions, id).value;
              && r.result == Ok(())
              && FindSubmission(r.post.submissions, id) == Some(s.(status := Approved))
              && |r.post.submissions| == |st.submissions|
              && (forall j :: 0 <= j < |st.submissions| ==>
                    r.post.submissions[j] == st.submissions[j] || st.submissions[j].id == id)
              && r.post.tasks == st.tasks
              && r.post.withdrawals == st.withdrawals
              && (CoinsOf(st.users, s.workerEmail).Some? ==>
                    CoinsOf(r.post.users, s.workerEmail) == Some(CoinsOf(st.users, s.workerEmail).value + s.pay))
              && (CoinsOf(st.users, s.workerEmail).None? ==> r.post.users == st.users)
              && (forall e :: e != s.workerEmail ==> CoinsOf(r.post.users, e) == CoinsOf(st.users, e))
              && r.post.notices ==
                   st.notices + [Notice(noticeId, s.workerEmail, SubmissionApproved(s.pay), MySubmissionsRoute, now, false)]
  {
    match FindSubmission(st.submissions, id)
    case None => Reply(Err(NotFound), st)
    case Some(s) =>
      var users := Credit(st.users, s.workerEmail, s.pay);
      var n := Notice(noticeId, s.workerEmail, SubmissionApproved(s.pay), MySubmissionsRoute, now, false);
      Reply(Ok(()), State(users, st.tasks, SetStatus(st.submissions, id, Approved), st.withdrawals, st.notices + [n]))
  }

  /** PATCH /submissions/:id/reject. Unknown id: 404 and no change. Otherwise
      the submission becomes rejected, its task's counter drops by one with no
      floor (no task, no change), its buyer is refunded its pay, and the worker
      is notified. There is no status check. */
  function Reject(st: State, id: Id, noticeId: Id, now: Time): (r: Reply<()>)
    ensures |r.post.submissions| == |st.submissions|
    ensures FindIndex(st.submissions, SubmissionById(id)).Some? ==>
              forall j :: 0 <= j < |st.submissions| && j != FindIndex(st.submissions, SubmissionById(id)).value ==>
                r.post.submissions[j] == st.submissions[j]
    ensures FindSubmission(st.submissions, id).None? <==> r.result == Err(NotFound)
    ensures r.result.Err? ==> r.post == st
    ensures FindSubmission(st.submissions, id).Some? ==>
              var s := FindSubmission(st.submissions, id).value;
              && r.result == Ok(())
              && FindSubmission(r.post.submissions, id) == Some(s.(status := Rejected))
              && |r.post.submissions| == |st.submissions|
              && (forall j :: 0 <= j < |st.submissions| ==>
                    r.post.submissions[j] == st.submissions[j] || st.submissions[j].id == id)
              && r.post.withdrawals == st.withdrawals
              && r.post.notices ==
                   st.notices + [Notice(noticeId, s.workerEmail, SubmissionRejected, MySubmissionsRoute, now, false)]
  {
    match FindSubmission(st.submissions, id)
    case None => Reply(Err(NotFound), st)
    case Some(s) =>
      var tasks := ShiftSlots(st.tasks, s.taskId, -1);
      var users := Credit(st.users, s.buyerEmail, s.pay);
      var n := Notice(noticeId, s.workerEmail, SubmissionRejected, MySubmissionsRoute, now, false);
      Reply(Ok(()), State(users, tasks, SetStatus(st.submissions, id, Rejected), st.withdrawals, st.notices + [n]))
  }

  /** When both checks would fail, the duplicate is what is reported. */
  lemma DuplicateCheckedFirst(st: State, req: NewSubmission, id: Id, noticeId: Id, now: Time)
    requires HasSubmitted(st.submissions, req.taskId, req.workerEmail)
    requires !SlotOpen(st.tasks, req.taskId)
    ensures Create(st, req, id, noticeId, now).result == Err(Duplicate)
  {
  }

  /** One approval, as far as the worker's balance and the submission go. */
  lemma ApprovePays(st: State, id: Id, n: Id, now: Time)
    requires FindSubmission(st.submissions, id).Some?
    requires CoinsOf(st.users, FindSubmission(st.submissions, id).value.workerEmail).Some?
    ensures var s := FindSubmission(st.submissions, id).value;
      var r := Approve(st, id, n, now);
      && r.result == Ok(())
      && FindSubmission(r.post.submissions, id) == Some(s.(status := Approved))
      && CoinsOf(r.post.users, s.workerEmail) == Some(CoinsOf(st.users, s.workerEmail).value + s.pay)
      && OnlyCoinsChanged(st.users, r.post.users)
  {
  }

  /** Approving the same submission a second time succeeds again and credits
      the worker a second time: nothing guards against a double payout. */
  lemma ApproveTwicePaysTwice(st: State, id: Id, n1: Id, n2: Id, t1: Time, t2: Time)
    requires FindSubmission(st.submissions, id).Some?
    requires CoinsOf(st.users, FindSubmission(st.submissions, id).value.workerEmail).Some?
    ensures var s := FindSubmission(st.submissions, id).value;
      var once := Approve(st, id, n1, t1);
      var twice := Approve(once.post, id, n2, t2);
      && twice.result == Ok(())
      && CoinsOf(twice.post.users, s.workerEmail)
         == Some(CoinsOf(st.users, s.workerEmail).value + 2 * s.pay)
  {
    hide *;
    ApprovePays(st, id, n1, t1);
    ApprovePays(Approve(st, id, n1, t1).post, id, n2, t2);
  }

  /** One reject, in terms of the ledger and slot primitives it applies. */
  lemma RejectApplies(st: State, id: Id, n: Id, now: Time)
    requires FindSubmission(st.submissions, id).Some?
    ensures var s := FindSubmission(st.submissions, id).value;
      var post := Reject(st, id, n, now).post;
      && post.users == Credit(st.users, s.buyerEmail, s.pay)
      && post.tasks == ShiftSlots(st.tasks, s.taskId, -1)
      && FindSubmission(post.submissions, id) == Some(s.(status := Rejected))
  {
  }

  /** Reject lowers the slot counter of the submission's task by one, with no
      floor, and touches no other task; with the task gone it changes nothing. */
  lemma RejectReleasesSlot(st: State, id: Id, n: Id, now: Time)
    requires FindSubmission(st.submissions, id).Some?
    ensures var s := FindSubmission(st.submissions, id).value;
      var post := Reject(st, id, n, now).post;
      && (FindTask(st.tasks, s.taskId).Some? ==>
            var t := FindTask(st.tasks, s.taskId).value;
            FindTask(post.tasks, s.taskId) == Some(t.(currentSubmissions := t.currentSubmissions - 1)))
      && (FindTask(st.tasks, s.taskId).None? ==> post.tasks == st.tasks)
      && (forall id' :: id' != s.taskId ==> FindTask(post.tasks, id') == FindTask(st.tasks, id'))
  {
    hide Reject, Credit, ShiftSlots, FindSubmission, FindTask, CoinsOf;
    RejectApplies(st, id, n, now);
  }

  /** Reject refunds the submission's pay to the submission's buyer (when that
      account exists) and moves no other balance. */
  lemma RejectRefundsBuyer(st: State, id: Id, n: Id, now: Time)
    requires FindSubmission(st.submissions, id).Some?
    ensures var s := FindSubmission(st.submissions, id).value;
      var post := Reject(st, id, n, now).post;
      && (CoinsOf(st.users, s.buyerEmail).Some? ==>
            CoinsOf(post.users, s.buyerEmail) == Some(CoinsOf(st.users, s.buyerEmail).value + s.pay))
      && (CoinsOf(st.users, s.buyerEmail).None? ==> post.users == st.users)
      && (forall e :: e != s.buyerEmail ==> CoinsOf(post.users, e) == CoinsOf(st.users, e))
      && OnlyCoinsChanged(st.users, post.users)
  {
    hide *;
    RejectApplies(st, id, n, now);
  }

  /** One reject, as far as the buyer's balance, the task's counter and the
      submission go. */
  lemma RejectStep(st: State, id: Id, n: Id, now: Time)
    requires FindSubmission(st.submissions, id).Some?
    ensures var s := FindSubmission(st.submissions, id).value;
      var r := Reject(st, id, n, now);
      && r.result == Ok(())
      && FindSubmission(r.post.submissions, id) == Some(s.(status := Rejected))
      && (CoinsOf(st.users, s.buyerEmail).Some? ==>
            CoinsOf(r.post.users, s.buyerEmail) == Some(CoinsOf(st.users, s.buyerEmail).value + s.pay))
      && (FindTask(st.tasks, s.taskId).Some? ==>
            var t := FindTask(st.tasks, s.taskId).value;
            FindTask(r.post.tasks, s.taskId) == Some(t.(currentSubmissions := t.currentSubmissions - 1)))
  {
    hide Reject, Credit, ShiftSlots, FindSubmission, FindTask, CoinsOf;
    RejectApplies(st, id, n, now);
  }

  /** Rejecting the same submission twice lowers its task's slot counter twice. */
  lemma RejectTwiceReleasesTwice(st: State, id: Id, n1: Id, n2: Id, t1: Time, t2: Time)
    requires FindSubmission(st.submissions, id).Some?
    requires FindTask(st.tasks, FindSubmission(st.submissions, id).value.taskId).Some?
    ensures var s := FindSubmission(st.submissions, id).value;
      var t := FindTask(st.tasks, s.taskId).value;
      var twice := Reject(Reject(st, id, n1, t1).post, id, n2, t2);
      && twice.result == Ok(())
      && FindTask(twice.post.tasks, s.taskId) == Some(t.(currentSubmissions := t.currentSubmissions - 2))
  {
    hide *;
    RejectStep(st, id, n1, t1);
    RejectStep(Reject(st, id, n1, t1).post, id, n2, t2);
  }

  /** Rejecting the same submission twice refunds its buyer twice. */
  lemma RejectTwiceRefundsTwice(st: State, id: Id, n1: Id, n2: Id, t1: Time, t2: Time)
    requires FindSubmission(st.submissions, id).Some?
    requires CoinsOf(st.users, FindSubmission(st.submissions, id).value.buyerEmail).Some?
    ensures var s := FindSubmission(st.submissions, id).value;
      var twice := Reject(Reject(st, id, n1, t1).post, id, n2, t2);
      CoinsOf(twice.post.users, s.buyerEmail) == Some(CoinsOf(st.users, s.buyerEmail).value + 2 * s.pay)
  {
    hide *;
    RejectStep(st, id, n1, t1);
    RejectStep(Reject(st, id, n1, t1).post, id, n2, t2);
  }
}

=== FILE: tasks.dfy ===
/** The task routes of server/routes/tasks.js: listing, lookup, creation funded
    by a debit of quantity × pay from the buyer, detail-only update, and
    deletion that refunds the unused slots and removes the task's submissions. */
module Tasks {
  import opened Collection
  import opened Store

  /** The fields of the creation request body that the handler uses. */
  datatype NewTask = NewTask(
    title: string,
    detail: string,
    submissionInfo: string,
    quantity: int,
    pay: int,
    buyerEmail: Email)

  function CreatedAt(t: Task): int { t.createdAt }

  function TaskOfBuyer(e: Email): Task -> bool { (t: Task) => t.buyerEmail == e }

  /** Every task document; the filter that keeps all of them. */
  function AnyTask(t: Task): bool { true }

  /** GET /tasks: every task, newest first. */
  function List(st: State): (r: seq<Task>)
    ensures multiset(r) == multiset(st.tasks)
    ensures SortedDesc(r, CreatedAt)
  {
    assert Filter(st.tasks, AnyTask) == st.tasks by { FilterKeepsAll(st.tasks, AnyTask); }
    FindSorted(st.tasks, AnyTask, CreatedAt)
  }

  /** GET /tasks/buyer/:email: that buyer's tasks, newest first. */
  function ListByBuyer(st: State, e: Email): (r: seq<Task>)
    ensures forall j :: 0 <= j < |r| ==> r[j].buyerEmail == e
    ensures forall j :: 0 <= j < |st.tasks| && st.tasks[j].buyerEmail == e ==> st.tasks[j] in r
    ensures multiset(r) <= multiset(st.tasks)
    ensures SortedDesc(r, CreatedAt)
  {
    FindSortedMembers(st.tasks, TaskOfBuyer(e), CreatedAt);
    FindSorted(st.tasks, TaskOfBuyer(e), CreatedAt)
  }

  /** GET /tasks/:id: the task, or 404. */
  function Get(st: State, id: Id): (r: Result<Task>)
    ensures r.Ok? <==> exists j :: 0 <= j < |st.tasks| && st.tasks[j].id == id
    ensures r.Ok? ==> r.value in st.tasks && r.value.id == id
    ensures r.Err? ==> r.error == NotFound
  {
    match FindTask(st.tasks, id)
    case None => Err(NotFound)
    case Some(t) => Ok(t)
  }

  /** POST /tasks. The cost quantity × pay is compared with the buyer's balance by
      a strict `<`, then debited, and a task with no slots taken is stored. A
      buyer that does not exist is dereferenced and the handler answers 500.
      Quantity and pay are not validated. */
  function Create(st: State, req: NewTask, id: Id, now: Time): (r: Reply<Task>)
    ensures r.result.Err? ==> r.post == st
    ensures CoinsOf(st.users, req.buyerEmail).None? ==> r.result == Err(Internal)
    ensures r.result == Err(Insufficient) <==>
              CoinsOf(st.users, req.buyerEmail).Some? &&
              CoinsOf(st.users, req.buyerEmail).value < req.quantity * req.pay
    ensures r.result.Ok? <==>
              CoinsOf(st.users, req.buyerEmail).Some? &&
              CoinsOf(st.users, req.buyerEmail).value >= req.quantity * req.pay
    ensures r.result.Ok? ==>
              var t := r.result.value;
              && t == Task(id, req.title, req.detail, req.submissionInfo, req.quantity, req.pay,
                           req.buyerEmail, 0, now)
              && r.post.tasks == st.tasks + [t]
              && r.post.submissions == st.submissions
              && r.post.withdrawals == st.withdrawals
              && r.post.notices == st.notices
  {
    var cost := req.quantity * req.pay;
    match FindUser(st.users, req.buyerEmail)
    case None => Reply(Err(Internal), st)
    case Some(buyer) =>
      if buyer.coins < cost then Reply(Err(Insufficient), st)
      else
        var t := Task(id, req.title, req.detail, req.submissionInfo, req.quantity, req.pay,
                      req.buyerEmail, 0, now);
        Reply(Ok(t), st.(users := Credit(st.users, req.buyerEmail, -cost), tasks := st.tasks + [t]))
  }

  /** A successful creation debits the buyer by exactly quantity × pay, leaves
      that balance non-negative, and moves no other balance. */
  lemma CreateDebits(st: State, req: NewTask, id: Id, now: Time)
    requires Create(st, req, id, now).result.Ok?
    ensures var post := Create(st, req, id, now).post;
      && CoinsOf(post.users, req.buyerEmail).Some?
      && CoinsOf(post.users, req.buyerEmail).value
         == CoinsOf(st.users, req.buyerEmail).value - req.quantity * req.pay
      && CoinsOf(post.users, req.buyerEmail).value >= 0
      && (forall e :: e != req.buyerEmail ==> CoinsOf(post.users, e) == CoinsOf(st.users, e))
      && TotalCoins(post.users) == TotalCoins(st.users) - req.quantity * req.pay
      && OnlyCoinsChanged(st.users, post.users)
  {
  }

  /** The test is strict: a balance exactly equal to the cost is accepted and
      drops to zero. */
  lemma CreateExactBalance(st: State, req: NewTask, id: Id, now: Time)
    requires CoinsOf(st.users, req.buyerEmail) == Some(req.quantity * req.pay)
    ensures Create(st, req, id, now).result.Ok?
    ensures CoinsOf(Create(st, req, id, now).post.users, req.buyerEmail) == Some(0)
  {
  }

  /** The financial fields of a task: what the escrow was computed from. */
  ghost predicate SameTerms(a: Task, b: Task)
  {
    a.id == b.id && a.quantity == b.quantity && a.pay == b.pay &&
    a.buyerEmail == b.buyerEmail && a.currentSubmissions == b.currentSubmissions &&
    a.createdAt == b.createdAt
  }

  function SetDetails(title: string, detail: string, info: string): Task -> Task
  {
    (t: Task) => t.(title := title, detail := detail, submissionInfo := info)
  }

  /** PUT /tasks/:id. Sets title, detail and submission instructions of the task
      with that id; quantity, pay, slot count, buyer and every balance stay as
      they were. An unknown id matches nothing and the answer is still success. */
  function Update(st: State, id: Id, title: string, detail: string, info: string): (r: Reply<()>)
    ensures r.result.Ok?
    ensures |r.post.tasks| == |st.tasks|
    ensures forall j :: 0 <= j < |st.tasks| ==> SameTerms(r.post.tasks[j], st.tasks[j])
    ensures forall j :: 0 <= j < |st.tasks| ==>
              r.post.tasks[j] == st.tasks[j] ||
              (st.tasks[j].id == id &&
               r.post.tasks[j] == st.tasks[j].(title := title, detail := detail, submissionInfo := info))
    ensures FindIndex(st.tasks, TaskById(id)).Some? ==>
              forall j :: 0 <= j < |st.tasks| && j != FindIndex(st.tasks, TaskById(id)).value ==>
                r.post.tasks[j] == st.tasks[j]
    ensures FindTask(st.tasks, id).None? ==> r.post == st
    ensures FindTask(st.tasks, id).Some? ==>
              FindTask(r.post.tasks, id) ==
              Some(FindTask(st.tasks, id).value.(title := title, detail := detail, submissionInfo := info))
    ensures r.post.users == st.users && r.post.submissions == st.submissions
    ensures r.post.withdrawals == st.withdrawals && r.post.notices == st.notices
  {
    var tasks := UpdateOne(st.tasks, TaskById(id), SetDetails(title, detail, info));
    match FindIndex(st.tasks, TaskById(id))
    case None => Reply(Ok(()), st)
    case Some(k) =>
      FindIndexUpdate(st.tasks, TaskById(id), k, tasks[k]);
      Reply(Ok(()), st.(tasks := tasks))
  }

  function SubmissionNotOf(id: Id): Submission -> bool { (s: Submission) => s.taskId != id }

  /** The coins a deletion hands back: the unused slots times the pay per slot. */
  function Refund(t: Task): int
  {
    (t.quantity - t.currentSubmissions) * t.pay
  }

  /** DELETE /tasks/:id. Unknown id: 404 and no change. Otherwise the refund
      (quantity − slots taken) × pay is credited to the task's buyer when it is
      positive, the task is deleted, every submission for it is deleted, and the
      refund is returned whatever its sign. */
  function Delete(st: State, id: Id): (r: Reply<int>)
    ensures FindTask(st.tasks, id).None? <==> r.result == Err(NotFound)
    ensures FindTask(st.tasks, id).None? ==> r.post == st
    ensures FindTask(st.tasks, id).Some? ==>
              var t := FindTask(st.tasks, id).value;
              && r.result == Ok((t.quantity - t.currentSubmissions) * t.pay)
              && multiset(r.post.tasks) == multiset(st.tasks) - multiset{t}
              && (forall s :: s in r.post.submissions <==> s in st.submissions && s.taskId != id)
              && r.post.withdrawals == st.withdrawals
              && r.post.notices == st.notices
  {
    match FindIndex(st.tasks, TaskById(id))
    case None => Reply(Err(NotFound), st)
    case Some(k) =>
      var t := st.tasks[k];
      var refund := Refund(t);
      var users := if refund > 0 then Credit(st.users, t.buyerEmail, refund) else st.users;
      var tasks := DeleteOne(st.tasks, TaskById(id));
      var subs := Filter(st.submissions, SubmissionNotOf(id));
      DeleteOneMultiset(st.tasks, TaskById(id));
      FilterMembers(st.submissions, SubmissionNotOf(id));
      Reply(Ok(refund), st.(users := users, tasks := tasks, submissions := subs))
  }

  /** The refund goes to the task's buyer and to nobody else: a positive refund
      raises that balance (when the account exists) and the platform total by
      exactly the refund; a refund of zero or less credits nothing. */
  lemma DeleteRefunds(st: State, id: Id)
    requires FindTask(st.tasks, id).Some?
    ensures var t := FindTask(st.tasks, id).value;
      var refund := (t.quantity - t.currentSubmissions) * t.pay;
      var post := Delete(st, id).post;
      && (refund <= 0 ==> post.users == st.users)
      && (refund > 0 && CoinsOf(st.users, t.buyerEmail).Some? ==>
            CoinsOf(post.users, t.buyerEmail) == Some(CoinsOf(st.users, t.buyerEmail).value + refund)
            && TotalCoins(post.users) == TotalCoins(st.users) + refund)
      && (forall e :: e != t.buyerEmail ==> CoinsOf(post.users, e) == CoinsOf(st.users, e))
      && OnlyCoinsChanged(st.users, post.users)
  {
  }

  /** Deleting a task removes one task document with that id and keeps every
      task with another id. */
  lemma DeleteKeepsOtherTasks(st: State, id: Id, x: Task)
    requires FindTask(st.tasks, id).Some?
    requires x in st.tasks && x.id != id
    ensures x in Delete(st, id).post.tasks
  {
    var t := FindTask(st.tasks, id).value;
    assert x != t;
    assert x in multiset(st.tasks);
    assert x in multiset(Delete(st, id).post.tasks);
  }
}

=== FILE: traces.dfy ===
/** Concrete request sequences that show what the handlers allow when no
    status is checked: a buyer ends up with more coins than it started with
    after funding a task, and a one-slot task ends up with two live
    submissions. Each is stated on a small two-account store. */
module Traces {
  import opened Collection
  import opened Store
  import Tasks
  import Submissions
  import Platform

  const BuyerEmail: Email := "buyer@example.com"
  const WorkerEmail: Email := "worker@example.com"
  const OtherWorkerEmail: Email := "other@example.com"

  /** A buyer with 100 coins and two workers with their starting 10. */
  const Start: State := State(
    [User(1, BuyerEmail, "h", BuyerRole, 100),
     User(2, WorkerEmail, "h", WorkerRole, 10),
     User(3, OtherWorkerEmail, "h", WorkerRole, 10)],
    [], [], [], [])

  /** One slot at 10 coins. */
  const OneSlot: Tasks.NewTask := Tasks.NewTask("t", "d", "i", 1, 10, BuyerEmail)

  function SubmitBy(worker: Email): Submissions.NewSubmission
  {
    Submissions.NewSubmission(7, worker, BuyerEmail, 10)
  }

  /** Fund a one-slot task, have a worker take the slot, reject the work,
      then delete the task. */
  const Surplus: seq<Platform.Op> := [
    Platform.CreateTask(OneSlot, 7, 0),
    Platform.Submit(SubmitBy(WorkerEmail), 20, 30, 1),
    Platform.RejectSubmission(20, 31, 2),
    Platform.DeleteTask(7)]

  function Accounts(buyerCoins: int): seq<User>
  {
    [User(1, BuyerEmail, "h", BuyerRole, buyerCoins),
     User(2, WorkerEmail, "h", WorkerRole, 10),
     User(3, OtherWorkerEmail, "h", WorkerRole, 10)]
  }

  function SlotTask(taken: int): Task { Task(7, "t", "d", "i", 1, 10, BuyerEmail, taken, 0) }

  function Work(status: Status): Submission { Submission(20, 7, WorkerEmail, BuyerEmail, 10, status, 1) }

  const Submitted: Notice := Notice(30, BuyerEmail, WorkSubmitted, Submissions.DashboardRoute, 1, false)
  const Rejection: Notice := Notice(31, WorkerEmail, SubmissionRejected, Submissions.MySubmissionsRoute, 2, false)

  lemma CreditBuyer(b: int, delta: int)
    ensures Credit(Accounts(b), BuyerEmail, delta) == Accounts(b + delta)
  {
    assert FindIndex(Accounts(b), UserByEmail(BuyerEmail)) == Some(0);
  }

  lemma ShiftSlot(taken: int, delta: int)
    ensures ShiftSlots([SlotTask(taken)], 7, delta) == [SlotTask(taken + delta)]
  {
    assert FindIndex([SlotTask(taken)], TaskById(7)) == Some(0);
  }

  lemma Funding()
    ensures Start.users == Accounts(100)
    ensures Platform.Step(Start, Platform.CreateTask(OneSlot, 7, 0)) == State(Accounts(90), [SlotTask(0)], [], [], [])
  {
    hide Platform.Step, Tasks.Create;
    Platform.StepCreateTask(Start, OneSlot, 7, 0);
    FundingPost();
  }

  lemma FundingPost()
    ensures Tasks.Create(Start, OneSlot, 7, 0).post == State(Accounts(90), [SlotTask(0)], [], [], [])
  {
    assert Start.users == Accounts(100);
    assert FindIndex(Start.users, UserByEmail(BuyerEmail)) == Some(0);
    hide Credit, Accounts;
    CreditBuyer(100, -10);
  }

  lemma Taking()
    ensures Platform.Step(State(Accounts(90), [SlotTask(0)], [], [], []), Platform.Submit(SubmitBy(WorkerEmail), 20, 30, 1))
            == State(Accounts(90), [SlotTask(1)], [Work(Pending)], [], [Submitted])
  {
    hide Platform.Step, Submissions.Create;
    Platform.StepSubmit(State(Accounts(90), [SlotTask(0)], [], [], []), SubmitBy(WorkerEmail), 20, 30, 1);
    TakingPost();
  }

  lemma TakingPost()
    ensures Submissions.Create(State(Accounts(90), [SlotTask(0)], [], [], []), SubmitBy(WorkerEmail), 20, 30, 1).post
            == State(Accounts(90), [SlotTask(1)], [Work(Pending)], [], [Submitted])
  {
    assert FindIndex([SlotTask(0)], TaskById(7)) == Some(0);
    hide ShiftSlots, Accounts;
    ShiftSlot(0, 1);
  }

  lemma Rejecting()
    ensures Platform.Step(State(Accounts(90), [SlotTask(1)], [Work(Pending)], [], [Submitted]), Platform.RejectSubmission(20, 31, 2))
            == State(Accounts(100), [SlotTask(0)], [Work(Rejected)], [], [Submitted, Rejection])
  {
    hide Platform.Step, Submissions.Reject;
    Platform.StepReject(State(Accounts(90), [SlotTask(1)], [Work(Pending)], [], [Submitted]), 20, 31, 2);
    RejectWork(State(Accounts(90), [SlotTask(1)], [Work(Pending)], [], [Submitted]), 90, 1, 31, 2);
  }

  /** Rejecting the one piece of work, whatever its status, on the one-slot task. */
  lemma RejectWork(st: State, b: int, taken: int, n: Id, now: Time)
    requires st.users == Accounts(b) && st.tasks == [SlotTask(taken)]
    requires |st.submissions| == 1 && st.submissions[0].id == 20
    requires st.submissions[0].taskId == 7 && st.submissions[0].buyerEmail == BuyerEmail
    requires st.submissions[0].pay == 10
    ensures Submissions.Reject(st, 20, n, now).post
            == State(Accounts(b + 10), [SlotTask(taken - 1)], [st.submissions[0].(status := Rejected)], st.withdrawals,
                     st.notices + [Notice(n, st.submissions[0].workerEmail, SubmissionRejected, Submissions.MySubmissionsRoute, now, false)])
  {
    assert FindIndex(st.submissions, SubmissionById(20)) == Some(0);
    hide Credit, ShiftSlots, Accounts;
    ShiftSlot(taken, -1);
    CreditBuyer(b, 10);
  }

  lemma Deleting()
    ensures Platform.Step(State(Accounts(100), [SlotTask(0)], [Work(Rejected)], [], [Submitted, Rejection]), Platform.DeleteTask(7))
            == State(Accounts(110), [], [], [], [Submitted, Rejection])
  {
    hide Platform.Step, Tasks.Delete;
    Platform.StepDeleteTask(State(Accounts(100), [SlotTask(0)], [Work(Rejected)], [], [Submitted, Rejection]), 7);
    DeletingPost();
  }

  lemma DeletingPost()
    ensures Tasks.Delete(State(Accounts(100), [SlotTask(0)], [Work(Rejected)], [], [Submitted, Rejection]), 7).post
            == State(Accounts(110), [], [], [], [Submitted, Rejection])
  {
    assert FindIndex([SlotTask(0)], TaskById(7)) == Some(0);
    assert Filter([Work(Rejected)], Tasks.SubmissionNotOf(7)) == [];
    hide Credit, Accounts;
    CreditBuyer(100, 10);
  }

  lemma AccountsTotal(b: int)
    ensures TotalCoins(Accounts(b)) == b + 20
  {
    var s := Accounts(b);
    assert Sum(s[1..][1..][1..], Coins) == 0;
    assert Sum(s[1..][1..], Coins) == 10;
    assert Sum(s[1..], Coins) == 20;
  }

  lemma BuyerCoins(b: int)
    ensures CoinsOf(Accounts(b), BuyerEmail) == Some(b)
  {
    assert FindIndex(Accounts(b), UserByEmail(BuyerEmail)) == Some(0);
  }

  lemma SurplusEnds()
    ensures Platform.Run(Start, Surplus) == State(Accounts(110), [], [], [], [Submitted, Rejection])
  {
    var s1 := State(Accounts(90), [SlotTask(0)], [], [], []);
    var s2 := State(Accounts(90), [SlotTask(1)], [Work(Pending)], [], [Submitted]);
    var s3 := State(Accounts(100), [SlotTask(0)], [Work(Rejected)], [], [Submitted, Rejection]);
    var s4 := State(Accounts(110), [], [], [], [Submitted, Rejection]);
    var o0, o1, o2, o3 := Platform.CreateTask(OneSlot, 7, 0), Platform.Submit(SubmitBy(WorkerEmail), 20, 30, 1),
                          Platform.RejectSubmission(20, 31, 2), Platform.DeleteTask(7);
    var r3: seq<Platform.Op> := [o3];
    var r2 := [o2] + r3;
    var r1 := [o1] + r2;
    var r0 := [o0] + r1;
    assert Surplus == r0;
    assert Platform.Run(s4, []) == s4;
    assert r3 == [o3] + [];
    Funding();
    Taking();
    Rejecting();
    Deleting();
    hide *;
    Platform.RunCons(s3, o3, []);
    Platform.RunCons(s2, o2, r3);
    Platform.RunCons(s1, o1, r2);
    Platform.RunCons(Start, o0, r1);
  }

  /** The rejected slot is refunded twice, by the reject and again by the
      delete: the buyer paid 10 and got 20 back, ending at 110 coins, and the
      platform's total grew by 10 while nobody bought coins. */
  lemma RejectThenDeleteRefundsTwice()
    ensures CoinsOf(Platform.Run(Start, Surplus).users, BuyerEmail) == Some(110)
    ensures TotalCoins(Platform.Run(Start, Surplus).users) == TotalCoins(Start.users) + 10
  {
    hide *;
    SurplusEnds();
    Funding();
    BuyerCoins(110);
    AccountsTotal(100);
    AccountsTotal(110);
  }

  const ThirdWorkerEmail: Email := "third@example.com"

  /** Fund a one-slot task, take it, reject the same work twice, then let two
      more workers in. */
  const Overbook: seq<Platform.Op> := [
    Platform.CreateTask(OneSlot, 7, 0),
    Platform.Submit(SubmitBy(WorkerEmail), 20, 30, 1),
    Platform.RejectSubmission(20, 31, 2),
    Platform.RejectSubmission(20, 32, 3),
    Platform.Submit(SubmitBy(OtherWorkerEmail), 21, 33, 4),
    Platform.Submit(SubmitBy(ThirdWorkerEmail), 22, 34, 5)]

  function Later(id: Id, worker: Email, now: Time): Submission
  {
    Submission(id, 7, worker, BuyerEmail, 10, Pending, now)
  }

  const SecondRejection: Notice := Notice(32, WorkerEmail, SubmissionRejected, Submissions.MySubmissionsRoute, 3, false)
  function SubmittedAt(id: Id, now: Time): Notice { Notice(id, BuyerEmail, WorkSubmitted, Submissions.DashboardRoute, now, false) }

  lemma RejectingAgain()
    ensures Platform.Step(State(Accounts(100), [SlotTask(0)], [Work(Rejected)], [], [Submitted, Rejection]), Platform.RejectSubmission(20, 32, 3))
            == State(Accounts(110), [SlotTask(-1)], [Work(Rejected)], [], [Submitted, Rejection, SecondRejection])
  {
    hide Platform.Step, Submissions.Reject;
    Platform.StepReject(State(Accounts(100), [SlotTask(0)], [Work(Rejected)], [], [Submitted, Rejection]), 20, 32, 3);
    RejectWork(State(Accounts(100), [SlotTask(0)], [Work(Rejected)], [], [Submitted, Rejection]), 100, 0, 32, 3);
  }

  lemma SecondWorkerIn()
    ensures Platform.Step(State(Accounts(110), [SlotTask(-1)], [Work(Rejected)], [], [Submitted, Rejection, SecondRejection]),
                          Platform.Submit(SubmitBy(OtherWorkerEmail), 21, 33, 4))
            == State(Accounts(110), [SlotTask(0)], [Work(Rejected), Later(21, OtherWorkerEmail, 4)], [],
                     [Submitted, Rejection, SecondRejection, SubmittedAt(33, 4)])
  {
    hide Platform.Step, Submissions.Create;
    Platform.StepSubmit(State(Accounts(110), [SlotTask(-1)], [Work(Rejected)], [], [Submitted, Rejection, SecondRejection]),
                        SubmitBy(OtherWorkerEmail), 21, 33, 4);
    SecondWorkerPost();
  }

  lemma SecondWorkerPost()
    ensures Submissions.Create(State(Accounts(110), [SlotTask(-1)], [Work(Rejected)], [], [Submitted, Rejection, SecondRejection]),
                               SubmitBy(OtherWorkerEmail), 21, 33, 4).post
            == State(Accounts(110), [SlotTask(0)], [Work(Rejected), Later(21, OtherWorkerEmail, 4)], [],
                     [Submitted, Rejection, SecondRejection, SubmittedAt(33, 4)])
  {
    assert FindIndex([Work(Rejected)], Submissions.SubmissionFor(7, OtherWorkerEmail)).None?;
    assert FindIndex([SlotTask(-1)], TaskById(7)) == Some(0);
    hide ShiftSlots, Accounts;
    ShiftSlot(-1, 1);
  }

  lemma ThirdWorkerIn()
    ensures Platform.Step(State(Accounts(110), [SlotTask(0)], [Work(Rejected), Later(21, OtherWorkerEmail, 4)], [],
                                [Submitted, Rejection, SecondRejection, SubmittedAt(33, 4)]),
                          Platform.Submit(SubmitBy(ThirdWorkerEmail), 22, 34, 5))
            == State(Accounts(110), [SlotTask(1)], [Work(Rejected), Later(21, OtherWorkerEmail, 4), Later(22, ThirdWorkerEmail, 5)], [],
                     [Submitted, Rejection, SecondRejection, SubmittedAt(33, 4), SubmittedAt(34, 5)])
  {
    hide Platform.Step, Submissions.Create;
    Platform.StepSubmit(State(Accounts(110), [SlotTask(0)], [Work(Rejected), Later(21, OtherWorkerEmail, 4)], [],
                              [Submitted, Rejection, SecondRejection, SubmittedAt(33, 4)]),
                        SubmitBy(ThirdWorkerEmail), 22, 34, 5);
    ThirdWorkerPost();
  }

  lemma ThirdWorkerPost()
    ensures Submissions.Create(State(Accounts(110), [SlotTask(0)], [Work(Rejected), Later(21, OtherWorkerEmail, 4)], [],
                                     [Submitted, Rejection, SecondRejection, SubmittedAt(33, 4)]),
                               SubmitBy(ThirdWorkerEmail), 22, 34, 5).post
            == State(Accounts(110), [SlotTask(1)], [Work(Rejected), Later(21, OtherWorkerEmail, 4), Later(22, ThirdWorkerEmail, 5)], [],
                     [Submitted, Rejection, SecondRejection, SubmittedAt(33, 4), SubmittedAt(34, 5)])
  {
    var subs := [Work(Rejected), Later(21, OtherWorkerEmail, 4)];
    assert FindIndex(subs[1..], Submissions.SubmissionFor(7, ThirdWorkerEmail)).None?;
    assert FindIndex(subs, Submissions.SubmissionFor(7, ThirdWorkerEmail)).None?;
    assert FindIndex([SlotTask(0)], TaskById(7)) == Some(0);
    hide ShiftSlots, Accounts;
    ShiftSlot(0, 1);
  }

  const Overbooked: State := State(
    Accounts(110), [SlotTask(1)],
    [Work(Rejected), Later(21, OtherWorkerEmail, 4), Later(22, ThirdWorkerEmail, 5)], [],
    [Submitted, Rejection, SecondRejection, SubmittedAt(33, 4), SubmittedAt(34, 5)])

  lemma OverbookReaches()
    ensures Platform.Run(Start, Overbook) == Overbooked
  {
    var s1 := State(Accounts(90), [SlotTask(0)], [], [], []);
    var s2 := State(Accounts(90), [SlotTask(1)], [Work(Pending)], [], [Submitted]);
    var s3 := State(Accounts(100), [SlotTask(0)], [Work(Rejected)], [], [Submitted, Rejection]);
    var s4 := State(Accounts(110), [SlotTask(-1)], [Work(Rejected)], [], [Submitted, Rejection, SecondRejection]);
    var s5 := State(Accounts(110), [SlotTask(0)], [Work(Rejected), Later(21, OtherWorkerEmail, 4)], [],
                    [Submitted, Rejection, SecondRejection, SubmittedAt(33, 4)]);
    var s6 := Overbooked;
    var o0, o1, o2 := Platform.CreateTask(OneSlot, 7, 0), Platform.Submit(SubmitBy(WorkerEmail), 20, 30, 1),
                      Platform.RejectSubmission(20, 31, 2);
    var o3, o4, o5 := Platform.RejectSubmission(20, 32, 3), Platform.Submit(SubmitBy(OtherWorkerEmail), 21, 33, 4),
                      Platform.Submit(SubmitBy(ThirdWorkerEmail), 22, 34, 5);
    var r5: seq<Platform.Op> := [o5];
    var r4 := [o4] + r5;
    var r3 := [o3] + r4;
    var r2 := [o2] + r3;
    var r1 := [o1] + r2;
    var r0 := [o0] + r1;
    assert Overbook == r0;
    assert Platform.Run(s6, []) == s6;
    assert r5 == [o5] + [];
    Funding();
    Taking();
    Rejecting();
    RejectingAgain();
    SecondWorkerIn();
    ThirdWorkerIn();
    hide *;
    Platform.RunCons(s5, o5, []);
    Platform.RunCons(s4, o4, r5);
    Platform.RunCons(s3, o3, r4);
    Platform.RunCons(s2, o2, r3);
    Platform.RunCons(s1, o1, r2);
    Platform.RunCons(Start, o0, r1);
  }

  /** Rejecting the same submission twice frees two slots for one taken: the
      one-slot task then accepts two more workers, so it holds two pending
      submissions besides the rejected one while its counter reads full and no
      task is over its counter, and the buyer holds 110 coins, refunded twice
      for the single slot it paid 10 for. */
  lemma DoubleRejectOverbooks()
    ensures var post := Platform.Run(Start, Overbook);
      && FindTask(post.tasks, 7) == Some(SlotTask(1))
      && Platform.AllFunded(post)
      && Count(post.submissions, Submissions.OfTask(7)) == 3
      && Later(21, OtherWorkerEmail, 4) in post.submissions
      && Later(22, ThirdWorkerEmail, 5) in post.submissions
      && CoinsOf(post.users, BuyerEmail) == Some(110)
  {
    OverbookReaches();
    OverbookedSlots();
    OverbookedWork();
    assert FindIndex(Overbooked.users, UserByEmail(BuyerEmail)) == Some(0);
  }

  lemma OverbookedSlots()
    ensures FindTask(Overbooked.tasks, 7) == Some(SlotTask(1))
    ensures Platform.AllFunded(Overbooked)
  {
    assert FindIndex(Overbooked.tasks, TaskById(7)) == Some(0);
  }

  lemma OverbookedWork()
    ensures Count(Overbooked.submissions, Submissions.OfTask(7)) == 3
    ensures Later(21, OtherWorkerEmail, 4) in Overbooked.submissions
    ensures Later(22, ThirdWorkerEmail, 5) in Overbooked.submissions
  {
    var a, b, c := Work(Rejected), Later(21, OtherWorkerEmail, 4), Later(22, ThirdWorkerEmail, 5);
    assert Overbooked.submissions == [a, b, c];
    ThreeOfTask(a, b, c);
  }

  lemma ThreeOfTask(a: Submission, b: Submission, c: Submission)
    requires a.taskId == 7 && b.taskId == 7 && c.taskId == 7
    ensures Count([a, b, c], Submissions.OfTask(7)) == 3
  {
    var p := Submissions.OfTask(7);
    assert p(a) && p(b) && p(c);
    var s2: seq<Submission> := [c];
    var s1 := [b] + s2;
    var s0 := [a] + s1;
    assert s0 == [a, b, c];
    assert Count([], p) == 0;
    hide Count, Filter;
    CountCons(s2, p);
    assert s2[1..] == [];
    CountCons(s1, p);
    assert s1[1..] == s2;
    CountCons(s0, p);
    assert s0[1..] == s1;
  }
}

=== FILE: users.dfy ===
/** The user routes of server/routes/users.js: the public top-workers query,
    the admin's role change and deletion, and the coin add/subtract endpoint. */
module Users {
  import opened Collection
  import opened Store

  /** How many workers the top-workers query returns. */
  const TopWorkersLimit: nat := 6

  const AddOperation: string := "add"

  function IsWorker(u: User): bool { u.role == WorkerRole }

  function FindUserById(users: seq<User>, id: Id): Option<User>
  {
    FindOne(users, UserById(id))
  }

  function UserId(u: User): Id { u.id }

  /** GET /users/top-workers: at most six workers, richest first; no worker
      left out has more coins than one returned. */
  function TopWorkers(st: State): (r: seq<User>)
    ensures |r| <= TopWorkersLimit
    ensures |r| == if Count(st.users, IsWorker) <= TopWorkersLimit then Count(st.users, IsWorker) else TopWorkersLimit
    ensures forall u :: u in r ==> u in st.users && u.role == WorkerRole
    ensures SortedDesc(r, Coins)
    ensures forall u, v :: u in st.users && u.role == WorkerRole && u !in r && v in r ==> v.coins >= u.coins
  {
    TopWorkersSpec(st.users);
    Top(st.users, IsWorker, Coins, TopWorkersLimit)
  }

  lemma TopWorkersSpec(users: seq<User>)
    ensures var r := Top(users, IsWorker, Coins, TopWorkersLimit);
      && |r| <= TopWorkersLimit
      && |r| == (if Count(users, IsWorker) <= TopWorkersLimit then Count(users, IsWorker) else TopWorkersLimit)
      && (forall u :: u in r ==> u in users && u.role == WorkerRole)
      && SortedDesc(r, Coins)
      && (forall u, v :: u in users && u.role == WorkerRole && u !in r && v in r ==> v.coins >= u.coins)
  {
    TopSpec(users, IsWorker, Coins, TopWorkersLimit);
    var r := Top(users, IsWorker, Coins, TopWorkersLimit);
    hide Top;
    assert forall u :: u in r ==> u in users && u.role == WorkerRole by {
      forall u | u in r ensures u in users && u.role == WorkerRole {
        assert IsWorker(u);
      }
    }
    forall u, v | u in users && u.role == WorkerRole && u !in r && v in r ensures v.coins >= u.coins {
      assert IsWorker(u);
      assert Coins(v) >= Coins(u);
    }
  }

  function SetRole(role: string): User -> User
  {
    (u: User) => u.(role := role)
  }

  /** PATCH /users/:id/role: sets the role of the user with that id and nothing
      else; an unknown id changes nothing. Always answers success. */
  function UpdateRole(st: State, id: Id, role: string): (r: Reply<()>)
    ensures r.result == Ok(())
    ensures |r.post.users| == |st.users|
    ensures forall j :: 0 <= j < |st.users| ==>
              r.post.users[j] == st.users[j] ||
              (st.users[j].id == id && r.post.users[j] == st.users[j].(role := role))
    ensures FindIndex(st.users, UserById(id)).Some? ==>
              forall j :: 0 <= j < |st.users| && j != FindIndex(st.users, UserById(id)).value ==>
                r.post.users[j] == st.users[j]
    ensures FindUserById(st.users, id).None? ==> r.post == st
    ensures FindUserById(st.users, id).Some? ==>
              FindUserById(r.post.users, id) == Some(FindUserById(st.users, id).value.(role := role))
    ensures r.post.tasks == st.tasks && r.post.submissions == st.submissions
    ensures r.post.withdrawals == st.withdrawals && r.post.notices == st.notices
  {
    match FindIndex(st.users, UserById(id))
    case None => Reply(Ok(()), st)
    case Some(k) =>
      var users := st.users[k := SetRole(role)(st.users[k])];
      FindIndexUpdate(st.users, UserById(id), k, users[k]);
      Reply(Ok(()), st.(users := users))
  }

  /** A role change moves no coins: every balance reads as before. */
  lemma UpdateRoleKeepsBalances(st: State, id: Id, role: string)
    ensures forall e :: CoinsOf(UpdateRole(st, id, role).post.users, e) == CoinsOf(st.users, e)
    ensures TotalCoins(UpdateRole(st, id, role).post.users) == TotalCoins(st.users)
  {
    match FindIndex(st.users, UserById(id))
    case None =>
    case Some(k) =>
      var post := UpdateRole(st, id, role).post;
      forall e ensures CoinsOf(post.users, e) == CoinsOf(st.users, e) {
        FindIndexUpdate(st.users, UserByEmail(e), k, post.users[k]);
      }
      SumUpdate(st.users, k, post.users[k], Coins);
  }

  /** DELETE /users/:id: removes the first user with that id; every other user
      document stays. An unknown id changes nothing. Always answers success. */
  function Delete(st: State, id: Id): (r: Reply<()>)
    ensures r.result == Ok(())
    ensures FindUserById(st.users, id).None? ==> r.post == st
    ensures FindUserById(st.users, id).Some? ==>
              multiset(r.post.users) == multiset(st.users) - multiset{FindUserById(st.users, id).value}
    ensures r.post.tasks == st.tasks && r.post.submissions == st.submissions
    ensures r.post.withdrawals == st.withdrawals && r.post.notices == st.notices
  {
    match FindIndex(st.users, UserById(id))
    case None => Reply(Ok(()), st)
    case Some(k) =>
      DeleteOneMultiset(st.users, UserById(id));
      Reply(Ok(()), st.(users := DeleteOne(st.users, UserById(id))))
  }

  /** With ids unique, deletion removes exactly the matching user: no user with
      that id remains, and every user with another id is still there. */
  lemma DeleteRemovesExactly(st: State, id: Id)
    requires Unique(st.users, UserId)
    ensures forall u :: u in Delete(st, id).post.users ==> u.id != id
    ensures forall u :: u in st.users && u.id != id ==> u in Delete(st, id).post.users
  {
    match FindIndex(st.users, UserById(id))
    case None =>
    case Some(k) =>
      assert Delete(st, id).post.users == st.users[..k] + st.users[k + 1..];
      hide Delete;
      RemovedIds(st.users, k, id);
  }

  lemma RemovedIds(users: seq<User>, k: nat, id: Id)
    requires k < |users| && users[k].id == id
    requires Unique(users, UserId)
    ensures forall u :: u in users[..k] + users[k + 1..] ==> u.id != id
    ensures forall u :: u in users && u.id != id ==> u in users[..k] + users[k + 1..]
  {
    var r := users[..k] + users[k + 1..];
    assert |r| == |users| - 1;
    assert forall j :: 0 <= j < k ==> r[j] == users[j];
    assert forall j :: k <= j < |r| ==> r[j] == users[j + 1];
    forall u | u in r ensures u.id != id {
      var j :| 0 <= j < |r| && r[j] == u;
      if j >= k {
        assert UserId(users[k]) != UserId(users[j + 1]);
      }
    }
    forall u | u in users && u.id != id ensures u in r {
      var j :| 0 <= j < |users| && users[j] == u;
      if j < k {
        assert r[j] == u;
      } else {
        assert j != k;
        assert r[j - 1] == u;
      }
    }
  }

  /** PATCH /users/:email/coins: "add" raises the balance by `coins`; any other
      operation lowers it by `coins`, with no check that the amount is
      non-negative or that the balance stays non-negative. An unknown email
      changes nothing. Always answers success. */
  function UpdateCoins(st: State, e: Email, coins: int, operation: string): (r: Reply<()>)
    ensures r.result == Ok(())
    ensures CoinsOf(st.users, e).None? ==> r.post == st
    ensures CoinsOf(st.users, e).Some? ==>
              CoinsOf(r.post.users, e) ==
              Some(CoinsOf(st.users, e).value + (if operation == AddOperation then coins else -coins))
    ensures forall e' :: e' != e ==> CoinsOf(r.post.users, e') == CoinsOf(st.users, e')
    ensures OnlyCoinsChanged(st.users, r.post.users)
    ensures r.post.tasks == st.tasks && r.post.submissions == st.submissions
    ensures r.post.withdrawals == st.withdrawals && r.post.notices == st.notices
  {
    var delta := if operation == AddOperation then coins else -coins;
    Reply(Ok(()), st.(users := Credit(st.users, e, delta)))
  }

  /** Nothing stops a subtraction from driving a balance below zero. */
  lemma SubtractCanOverdraw(st: State, e: Email, coins: int, operation: string)
    requires CoinsOf(st.users, e).Some?
    requires operation != AddOperation
    requires coins > CoinsOf(st.users, e).value
    ensures CoinsOf(UpdateCoins(st, e, coins, operation).post.users, e).value < 0
  {
  }
}

=== FILE: withdrawals.dfy ===
/** The withdrawal routes of server/routes/withdrawals.js: a worker's cash-out
    request, which escrows the coins by debiting them at once, the admin's
    approval, which only records the payout, and the listings. */
module Withdrawals {
  import opened Collection
  import opened Store

  /** The smallest withdrawal accepted, in coins ($10 at 20 coins to the dollar). */
  const MinimumCoins: int := 200

  const WithdrawalsRoute: string := "/dashboard/withdrawals"

  /** The fields of the request body that the handler uses. */
  datatype NewWithdrawal = NewWithdrawal(
    workerEmail: Email,
    coin: int,
    amount: int,
    paymentSystem: string,
    accountNumber: string)

  function RequestedAt(w: Withdrawal): int { w.requestedAt }

  function AnyWithdrawal(w: Withdrawal): bool { true }

  function OfWorker(e: Email): Withdrawal -> bool { (w: Withdrawal) => w.workerEmail == e }

  function FindWithdrawal(ws: seq<Withdrawal>, id: Id): Option<Withdrawal>
  {
    FindOne(ws, WithdrawalById(id))
  }

  /** GET /withdrawals (admin): every request, newest first. */
  function ListAll(st: State): (r: seq<Withdrawal>)
    ensures multiset(r) == multiset(st.withdrawals)
    ensures SortedDesc(r, RequestedAt)
  {
    assert Filter(st.withdrawals, AnyWithdrawal) == st.withdrawals by { FilterKeepsAll(st.withdrawals, AnyWithdrawal); }
    FindSorted(st.withdrawals, AnyWithdrawal, RequestedAt)
  }

  /** GET /withdrawals/worker/:email: exactly that worker's requests, newest first. */
  function ForWorker(st: State, e: Email): (r: seq<Withdrawal>)
    ensures forall j :: 0 <= j < |r| ==> r[j].workerEmail == e
    ensures forall j :: 0 <= j < |st.withdrawals| && st.withdrawals[j].workerEmail == e ==> st.withdrawals[j] in r
    ensures multiset(r) <= multiset(st.withdrawals)
    ensures SortedDesc(r, RequestedAt)
  {
    FindSortedMembers(st.withdrawals, OfWorker(e), RequestedAt);
    FindSorted(st.withdrawals, OfWorker(e), RequestedAt)
  }

  /** POST /withdrawals. A worker that does not exist is dereferenced (500).
      The balance is checked before the minimum; on success the coins are
      debited at once and a pending request is stored with the coin and cash
      amounts as sent. */
  function Request(st: State, req: NewWithdrawal, id: Id, now: Time): (r: Reply<Withdrawal>)
    ensures r.result.Err? ==> r.post == st
    ensures CoinsOf(st.users, req.workerEmail).None? ==> r.result == Err(Internal)
    ensures r.result == Err(Insufficient) <==>
              CoinsOf(st.users, req.workerEmail).Some? && CoinsOf(st.users, req.workerEmail).value < req.coin
    ensures r.result == Err(BelowMinimum) <==>
              CoinsOf(st.users, req.workerEmail).Some? && CoinsOf(st.users, req.workerEmail).value >= req.coin &&
              req.coin < MinimumCoins
    ensures r.result.Ok? <==>
              CoinsOf(st.users, req.workerEmail).Some? && CoinsOf(st.users, req.workerEmail).value >= req.coin &&
              req.coin >= MinimumCoins
    ensures r.result.Ok? ==>
              var w := r.result.value;
              && w == Withdrawal(id, req.workerEmail, req.coin, req.amount, req.paymentSystem,
                                 req.accountNumber, Pending, now, None)
              && r.post.withdrawals == st.withdrawals + [w]
              && r.post.tasks == st.tasks
              && r.post.submissions == st.submissions
              && r.post.notices == st.notices
  {
    match FindUser(st.users, req.workerEmail)
    case None => Reply(Err(Internal), st)
    case Some(worker) =>
      if worker.coins < req.coin then Reply(Err(Insufficient), st)
      else if req.coin < MinimumCoins then Reply(Err(BelowMinimum), st)
      else
        var w := Withdrawal(id, req.workerEmail, req.coin, req.amount, req.paymentSystem,
                            req.accountNumber, Pending, now, None);
        Reply(Ok(w), st.(users := Credit(st.users, req.workerEmail, -req.coin),
                         withdrawals := st.withdrawals + [w]))
  }

  /** A successful request debits the worker by exactly the coins requested,
      leaves that balance non-negative, and moves no other balance. */
  lemma RequestDebits(st: State, req: NewWithdrawal, id: Id, now: Time)
    requires Request(st, req, id, now).result.Ok?
    ensures var post := Request(st, req, id, now).post;
      && CoinsOf(post.users, req.workerEmail) == Some(CoinsOf(st.users, req.workerEmail).value - req.coin)
      && CoinsOf(post.users, req.workerEmail).value >= 0
      && (forall e :: e != req.workerEmail ==> CoinsOf(post.users, e) == CoinsOf(st.users, e))
      && TotalCoins(post.users) == TotalCoins(st.users) - req.coin
      && OnlyCoinsChanged(st.users, post.users)
  {
  }

  /** The balance is checked first: when the balance is short and the amount is
      also under the minimum, the answer is Insufficient. */
  lemma BalanceCheckedFirst(st: State, req: NewWithdrawal, id: Id, now: Time)
    requires CoinsOf(st.users, req.workerEmail).Some?
    requires CoinsOf(st.users, req.workerEmail).value < req.coin
    requires req.coin < MinimumCoins
    ensures Request(st, req, id, now).result == Err(Insufficient)
  {
  }

  /** PATCH /withdrawals/:id/approve. Unknown id: 404 and no change. Otherwise
      the request becomes approved with the approval time stamped and the worker
      is notified; no balance moves. There is no status check. */
  function Approve(st: State, id: Id, noticeId: Id, now: Time): (r: Reply<()>)
    ensures |r.post.withdrawals| == |st.withdrawals|
    ensures FindIndex(st.withdrawals, WithdrawalById(id)).Some? ==>
              forall j :: 0 <= j < |st.withdrawals| && j != FindIndex(st.withdrawals, WithdrawalById(id)).value ==>
                r.post.withdrawals[j] == st.withdrawals[j]
    ensures FindWithdrawal(st.withdrawals, id).None? <==> r.result == Err(NotFound)
    ensures r.result.Err? ==> r.post == st
    ensures FindWithdrawal(st.withdrawals, id).Some? ==>
              var w := FindWithdrawal(st.withdrawals, id).value;
              && r.result == Ok(())
              && FindWithdrawal(r.post.withdrawals, id) == Some(w.(status := Approved, approvedAt := Some(now)))
              && |r.post.withdrawals| == |st.withdrawals|
              && (forall j :: 0 <= j < |st.withdrawals| ==>
                    r.post.withdrawals[j] == st.withdrawals[j] || st.withdrawals[j].id == id)
              && r.post.users == st.users
              && r.post.tasks == st.tasks
              && r.post.submissions == st.submissions
              && r.post.notices ==
                   st.notices + [Notice(noticeId, w.workerEmail, WithdrawalApproved(w.amount), WithdrawalsRoute, now, false)]
  {
    match FindIndex(st.withdrawals, WithdrawalById(id))
    case None => Reply(Err(NotFound), st)
    case Some(k) =>
      var w := st.withdrawals[k];
      var ws := st.withdrawals[k := w.(status := Approved, approvedAt := Some(now))];
      FindIndexUpdate(st.withdrawals, WithdrawalById(id), k, ws[k]);
      var n := Notice(noticeId, w.workerEmail, WithdrawalApproved(w.amount), WithdrawalsRoute, now, false);
      Reply(Ok(()), st.(withdrawals := ws, notices := st.notices + [n]))
  }

  /** Approving an already approved request succeeds again: the approval time
      is overwritten, a second notification is sent, and still no balance moves. */
  lemma ApproveTwiceRestamps(st: State, id: Id, n1: Id, n2: Id, t1: Time, t2: Time)
    requires FindWithdrawal(st.withdrawals, id).Some?
    ensures var w := FindWithdrawal(st.withdrawals, id).value;
      var once := Approve(st, id, n1, t1);
      var twice := Approve(once.post, id, n2, t2);
      && twice.result == Ok(())
      && FindWithdrawal(twice.post.withdrawals, id) == Some(w.(status := Approved, approvedAt := Some(t2)))
      && twice.post.users == st.users
      && |twice.post.notices| == |st.notices| + 2
  {
    hide Approve;
    var w := FindWithdrawal(st.withdrawals, id).value;
    var once := Approve(st, id, n1, t1);
    assert FindWithdrawal(once.post.withdrawals, id) == Some(w.(status := Approved, approvedAt := Some(t1)));
  }
}
